=== FILE: README.md ===
# veriCode session and progress model

veriCode is a browser practice tool for Verilog. A learner opens a problem
from a fixed catalog, or asks a generator for a new one. They edit code,
submit it to a grading oracle for a verdict, and chat with a tutor. When
signed in, their work on each problem is kept as a progress record. That
record holds a status (unseen < attempted < solved), the last code, the last
verdict, the chat transcript and a timestamp, and lives in a remote store
under `users/{userId}/progress/{problemId}`.

This Dafny project models the client-side progress synchroniser and the pure
helpers around it:

- `Types` (types.dfy): problems, verdicts, chat messages, users, progress records and the status order.
- `Progress` (progress.dfy): how the debounced save derives a status from the live verdict, and how it merges that status with the cached one without downgrading.
- `UserService` (user_service.dfy): the progress store as a class over a map keyed by (user id, problem id). It covers save, single fetch, the bulk fetch that builds a map from the query's documents in a loop, and the statistics. It also maps the identity provider's account to a `User`.
- `Sidebar` (sidebar.dfy): catalog and history search, the newest-first history list, the Standard/AI Gen caption, the status icon, and rendering nothing while closed.
- `Session` (session.dfy): the page's state machine.
  - Every event is a pure transition `On...` on a `SessionState`.
  - The class `Session` keeps the same state in fields; each of its methods is proved to perform its transition exactly.
  - The 2-second debounce is the `pending` field. A change to code, verdict, transcript, problem or user cancels it, and schedules a new one when a user and a problem are present. `Fire` is the timer expiring.
  - `Step`/`Run` apply arbitrary sequences of events. The invariants are proved over all such runs.
- `Lists`, `Text` (lists.dfy, text.dfy): `filter`, `reverse`, ASCII lower-casing, substring search, and the decimal rendering of a clock reading.

The clock is a parameter (`now`). So are the success or failure of remote calls (`fails`, `saveFails`, ...) and the oracles' answers (event payloads).

## Model

In `Session.Step`, the `TimerFire` event is the corrected `Session.OnFire`, which merges against the live cache (see Findings). So `Session.StepNeverLowersCache`, `Session.RunNeverLowersCache` and the other run lemmas describe the corrected program; the save as written is `Session.OnFireAsWritten`.

| member | source | states |
|---|---|---|
| `Progress.ComputeStatus` | App.tsx:94 | solved iff a verdict exists and is correct; attempted iff one exists and is incorrect; unseen iff there is none |
| `Progress.MergeStatus` | App.tsx:96-100 | the merged status is exactly the maximum of the cached and the computed status under unseen < attempted < solved, or the computed one when nothing is cached |
| `Progress.SavedRecord` | App.tsx:102-109 | the saved record carries the given problem id, code, verdict, transcript and clock reading, with status max(cached, computed) |
| `Progress.StatusNeverRegresses` | App.tsx:96-100 | after any sequence of saves the status is at least the starting status |
| `Progress.StatusMonotoneAlongHistory` | App.tsx:96-100 | along a sequence of saves, the status after a prefix is never above the status after the whole sequence |
| `Progress.SolvedIffSomeCorrect` | App.tsx:94-100 | a problem ends solved iff it started solved or some saved verdict was correct |
| `Progress.UnseenIffNoVerdict` | App.tsx:94-100 | from no record, a problem stays unseen iff no save carried a verdict |
| `Progress.UnseenAfterUnseen` | App.tsx:94-100 | from unseen, a problem stays unseen iff no save carried a verdict |
| `UserService.ToUser` | services/userService.ts:25-30 | id is the account uid; name is the display name or "User" when it is absent or empty; email is the email or ""; the avatar is present iff the photo URL is non-empty (the same mapping is repeated at services/userService.ts:71-76 and 137-142) |
| `UserService.OrElse` | services/userService.ts:27-28 | the default for an optional account field: its value when present and non-empty, otherwise the given default |
| `UserService.CurrentUser` | services/userService.ts:67-77 | no user without an account; otherwise the account mapped by `ToUser`, carrying its uid |
| `UserService.InsertByTime` | services/userService.ts:129 | inserting into a newest-first list keeps it newest first and adds exactly that record |
| `UserService.SortNewestFirst` | services/userService.ts:129 | the sorted records are a permutation of the input, ordered by non-increasing timestamp |
| `UserService.Recent` | services/userService.ts:129 | min(5, n) records from the input, newest first; every record left out is no newer than any included one |
| `UserService.StatsOf` | services/userService.ts:122-131 | totalAttempted is the number of records; totalSolved is at most that; recentActivity has min(5, n) records from the input, newest first, and every record left out is no newer than any included one |
| `UserService.RecentAreNewest` | services/userService.ts:129 | a prefix of a newest-first list holds its newest records |
| `UserService.SolvedCountIsSolvedRecords` | services/userService.ts:127 | totalSolved counts exactly the records whose status is solved |
| `UserService.SolvedCountOfSnapshot` | services/userService.ts:110-127 | over a fetched snapshot, the number of solved values equals the number of collection ids whose record is solved |
| `UserService.MapOf` | services/userService.ts:110-113 | the map built by the `forEach`: the last document written is stored under its id with its data |
| `UserService.MapOfDistinct` | services/userService.ts:110-113 | from documents with distinct ids, the built map has one entry per document, keyed by its id and holding its data, and no other key |
| `UserService.Partition` | services/userService.ts:106 | a user's collection holds a problem id iff the store holds that (user, problem) key, with the same record |
| `UserService.SaveThenRead` | services/userService.ts:82-95 | after a save, the single fetch of that key returns the record, the user's collection gains exactly that entry, and every other key is unchanged |
| `UserService.StatsOfSnapshot` | services/userService.ts:122-129 | statistics computed over a fetched snapshot summarise the collection it builds: totalAttempted is its size, totalSolved its number of solved entries, recentActivity min(5, size) of its records newest first, and every entry left out is no newer than any listed one |
| `UserService.RecentFromSnapshot` | services/userService.ts:129 | over a fetched snapshot, recentActivity has min(5, size of the built collection) records, newest first, each a value of that collection |
| `UserService.LeftOutFromSnapshot` | services/userService.ts:129 | over a fetched snapshot, every collection entry missing from recentActivity is no newer than any entry in it |
| `UserService.DataOf` | services/userService.ts:124 | `Object.values` of the built map, in document order: one value per document, position i holding document i's data |
| `UserService.DataOfIsMapValues` | services/userService.ts:110-124 | with distinct ids, position i of the values is what the built map stores under document i's id |
| `UserService.MapOfKeysListed` | services/userService.ts:110-113 | every key of the built map is the id of some document of the snapshot |
| `UserService.MapOfHoldsEach` | services/userService.ts:110-113 | with distinct ids, every document is stored under its id with its data |
| `UserService.MapValuesListed` | services/userService.ts:110-113 | every value of the built map is the data of some document of the snapshot |
| `UserService.ProgressStore.SaveUserProgress` | services/userService.ts:79-87 | the record is written under (user id, its problem id); a failed write leaves the store unchanged and is not reported |
| `UserService.ProgressStore.GetUserProgress` | services/userService.ts:89-102 | the stored record when it exists; nothing when it is missing or the read fails |
| `UserService.ProgressStore.QueryPartition` | services/userService.ts:106-108 | the query yields documents with distinct ids that together are exactly the user's collection |
| `UserService.ProgressStore.LoadProgress` | services/userService.ts:104-120 | the loop builds exactly the user's collection, keyed by document id, and the values in document order; a failure yields the empty map |
| `UserService.ProgressStore.GetAllUserProgress` | services/userService.ts:104-120 | the user's whole collection keyed by problem id, or the empty map on failure |
| `UserService.ProgressStore.GetUserStats` | services/userService.ts:122-131 | the statistics summarise the user's stored collection (the empty one on failure): totalAttempted is its size, totalSolved the number of its solved entries, recentActivity min(5, size) of its records newest first with every entry left out no newer than any listed; and they are `StatsOf` the values of some snapshot that builds exactly that collection |
| `Lists.Filter` | components/HistorySidebar.tsx:52-59 | the result is a subsequence of the input; it keeps every element the test accepts and drops every element it rejects |
| `Lists.Reverse` | components/HistorySidebar.tsx:147 | the reversed copy has the input's length |
| `Lists.ReverseAt` | components/HistorySidebar.tsx:147 | position k of the reversed copy is position n-1-k of the input |
| `Text.Lower` | components/HistorySidebar.tsx:53 | lower-casing keeps the length and maps each ASCII capital to its small letter |
| `Text.Includes` | components/HistorySidebar.tsx:53 | `includes` holds iff the needle occurs at some position of the haystack |
| `Text.DecimalString` | App.tsx:141 | `toString()` of a clock reading is a non-empty string of decimal digits |
| `Text.DecimalRoundTrip` | App.tsx:141 | the decimal rendering of a clock reading reads back as that reading, so generated ids are distinct for distinct readings |
| `Sidebar.FilteredLibrary` | components/HistorySidebar.tsx:52-55 | a catalog problem is kept iff its lower-cased title or difficulty contains the lower-cased query, in the original order |
| `Sidebar.FilteredHistory` | components/HistorySidebar.tsx:57-59 | a generated problem is kept iff its lower-cased title contains the lower-cased query, in the original order |
| `Sidebar.ShownHistory` | components/HistorySidebar.tsx:147 | the history list shown is the filtered history in reverse, newest first |
| `Sidebar.EmptyQueryKeepsAll` | components/HistorySidebar.tsx:52-59 | an empty search keeps both lists unchanged |
| `Sidebar.QueryCaseInsensitive` | components/HistorySidebar.tsx:52-59 | lower-casing the query does not change either filter |
| `Sidebar.OriginLabel` | components/HistorySidebar.tsx:207 | "Standard" iff the id starts with `static`, else "AI Gen" |
| `Sidebar.GeneratedIdsAreAIGen` | components/HistorySidebar.tsx:207 | a clock-reading id is always labelled "AI Gen" |
| `Sidebar.StatusIcon` | components/HistorySidebar.tsx:28-36 | check mark iff solved, yellow ring iff attempted, grey ring for unseen or a missing status |
| `Sidebar.Entries` | components/HistorySidebar.tsx:175-208 | one entry per listed problem, in order, with its active flag, caption, and status icon (catalog) or time (history) |
| `Sidebar.LibraryEntries` | components/HistorySidebar.tsx:122-135 | the catalog tab lists the filtered catalog in order, each entry with the icon of its status |
| `Sidebar.HistoryEntries` | components/HistorySidebar.tsx:138-156 | the history tab lists the filtered history newest first, each entry with its time |
| `Sidebar.Render` | components/HistorySidebar.tsx:50-158 | nothing iff closed; otherwise the catalog tab lists the filtered catalog with status icons, and the history tab lists the reversed filtered history with times |
| `Sidebar.RenderProps` | components/HistorySidebar.tsx:38-46 | with a status map, the rendered entries; without one, a type error iff the open tab lists any entry |
| `Session.Greeting` | App.tsx:149 | the tutor's opening message is from the model and is exactly the fixed opening, the problem title and the fixed closing, in that order (also App.tsx:180) |
| `Session.Cancel` | App.tsx:118 | the pending save is cleared and nothing else changes |
| `Session.Schedule` | App.tsx:93 | a save is pending, it holds the current context and cache entry, and nothing else changes |
| `Session.SaveEffect` | App.tsx:90-119 | the old timer is cleared; a new one is pending iff a user and a problem are present, and it holds the current context; nothing else changes |
| `Session.OnAuthChanged` | App.tsx:51-73 | the user is replaced; sign-out empties the cache and zeroes the stats; the save is rescheduled |
| `Session.OnProgressLoaded` | App.tsx:55-56 | the cache is replaced wholesale by the fetched map; the pending save is untouched |
| `Session.OnStatsLoaded` | App.tsx:59-68 | the stats are replaced; when the fetched map holds the open problem, its code, verdict and transcript are restored and the save is rescheduled: pending iff a user is signed in, over the new context and cache entry; otherwise only the stats change |
| `Session.OnSelectProblem` | App.tsx:159-182 | the open problem again changes nothing; a signed-in cache hit restores code, verdict and transcript verbatim; a miss gives the skeleton, no verdict and exactly one greeting |
| `Session.OnNewProblemRequested` | App.tsx:132-137 | the verdict and transcript are cleared before generation, and the save is rescheduled: pending iff a user and a problem are present, over the new context |
| `Session.OnNewProblemArrived` | App.tsx:140-150 | the generated problem gets the clock reading as id, is appended to the history and opened with its skeleton and one greeting and the save is rescheduled: pending iff a user is signed in, over the new context and cache entry |
| `Session.OnReset` | App.tsx:210-215 | the skeleton comes back and the verdict is cleared; the transcript is untouched; nothing happens without a problem or when code and verdict are already the skeleton and none; otherwise the save is rescheduled: pending iff a user is signed in, over the new context |
| `Session.OnEditCode` | App.tsx:412 | only the code changes; the same code changes nothing at all; new code reschedules the save: pending iff a user and a problem are present, over the new context |
| `Session.OnSendMessage` | App.tsx:217-221 | the learner's message is appended, only with a problem open, and the save is rescheduled: pending iff a user is signed in, over the new context |
| `Session.OnReplyArrived` | App.tsx:224-231 | the tutor's reply, or the fixed apology on failure, is appended, and the save is rescheduled: pending iff a user and a problem are present, over the new context |
| `Session.OnClearChat` | App.tsx:426 | the transcript becomes empty, and the save is rescheduled: pending iff a user and a problem are present, over the new context |
| `Session.OnSubmitStarted` | App.tsx:184-192 | the verdict is cleared while grading, only with a problem open; an already cleared verdict changes nothing; otherwise the save is rescheduled: pending iff a user is signed in, over the new context |
| `Session.OnVerdictArrived` | App.tsx:193-204 | a verdict replaces the result and reschedules the save (pending iff a user and a problem are present, over the new context); a failed grading changes nothing |
| `Session.FiredRecord` | App.tsx:94-109 | the fired record is for the pending problem, and its status is never below the cached one |
| `Session.OnFire` | App.tsx:93-116 | a fired save writes one merged record under the pending problem's id; every other cache entry and all other state is unchanged; no save is pending afterwards |
| `Session.FiredWrite` | App.tsx:115 | the save goes to the pending user's collection with the fired record |
| `Session.FireCommitsSessionState` | App.tsx:102-109 | a fired record's problem id, code, verdict and transcript are the session's current ones, written for the current user |
| `Session.Step` | App.tsx:50-243 | one event: only sign-in or sign-out changes the user, only selection or a generated problem changes the open problem, and only a generated problem extends the history, by exactly its stamped copy |
| `Session.Run` | App.tsx:50-243 | after a run of events the history is exactly the old history followed by the stamped copies of the problems generated in it, in order; the user is kept when no event is an auth change |
| `Session.StepReschedulesOnChange` | App.tsx:90-119 | any event that changes the user, problem, code, verdict or transcript leaves a save pending iff a user and a problem are present, holding the current context and cache entry |
| `Session.StepKeepsCaptureCurrent` | App.tsx:90-119 | no event leaves a pending save that holds a superseded user, problem, code, verdict or transcript |
| `Session.StepKeepsCaptureFresh` | App.tsx:90-119 | only the bulk load can leave a pending save with an outdated cache entry |
| `Session.RunKeepsCaptureCurrent` | App.tsx:91-118 | over any run, at most one save is pending, it holds the live context, and none is pending without a user and a problem |
| `Session.FireNeverLowersCache` | App.tsx:96-112 | a fired save never removes a cache entry or lowers its status |
| `Session.StepNeverLowersCache` | App.tsx:96-112 | except sign-out and bulk load, no event removes a cache entry or lowers its status |
| `Session.RunNeverLowersCache` | App.tsx:96-112 | over any run without sign-out or bulk load, no cache entry is removed or lowered |
| `Session.OnFireAsWritten` | App.tsx:93-116 | the save as written merges against the cache entry captured when it was scheduled |
| `Session.AsWrittenAgreesWhileFresh` | App.tsx:96 | while the captured entry is still the cached one, the save as written and the live-cache merge coincide |
| `Session.SignInRaceLowersStatus` | App.tsx:50-67 | a concrete sign-in in which the save as written overwrites a cached solved record with unseen |
| `Session.FireBeforeLoadOverwritesStore` | App.tsx:93-115 | a concrete sign-in in which the timer fires before the bulk load: even the live-cache merge writes status unseen over the store's solved record |
| `Session.SidebarStatusMap` | App.tsx:367 | the sidebar's status map has the cache's keys and each record's status |
| `Session.SidebarShowsCachedStatus` | components/HistorySidebar.tsx:131 | with the derived status map, each catalog entry shows the icon of its cached status |
| `Session.SidebarAsWiredThrows` | App.tsx:367 | as wired, the open catalog tab with any entry throws |
| `Session.Session.constructor` | App.tsx:25-46 | the initial state: no user, no problem, empty code, cache, history and transcript, zero stats, no pending save |
| `Session.Session.CancelPending` | App.tsx:118 | the pending save is cleared |
| `Session.Session.SchedulePending` | App.tsx:93 | a pending save over the current context and cache entry is set |
| `Session.Session.RerunSaveEffect` | App.tsx:90-119 | performs the save-effect transition |
| `Session.Session.AuthStateChanged` | App.tsx:51-73 | performs the auth-change transition |
| `Session.Session.ProgressFetched` | App.tsx:55-56 | performs the bulk-load transition |
| `Session.Session.StatsFetched` | App.tsx:59-68 | performs the stats-and-restore transition |
| `Session.Session.SignIn` | App.tsx:50-69 | an uninterrupted sign-in is exactly the auth change, the bulk load and the stats-and-restore transitions in turn: the user's whole collection becomes the cache, the stats are `StatsOf` a snapshot of the collection (size, solved count, newest five), the open problem's saved state is restored, and code, verdict and transcript stay when the collection lacks it |
| `Session.Session.SelectProblem` | App.tsx:159-182 | performs the selection transition |
| `Session.Session.Mount` | App.tsx:80-87 | the first catalog problem is opened, or generation is requested for an empty catalog |
| `Session.Session.NewProblemRequested` | App.tsx:132-137 | performs the generation-request transition |
| `Session.Session.NewProblemArrived` | App.tsx:140-150 | performs the generated-problem transition |
| `Session.Session.Reset` | App.tsx:210-215 | performs the reset transition |
| `Session.Session.EditCode` | App.tsx:412 | performs the code-edit transition |
| `Session.Session.SendMessage` | App.tsx:217-221 | performs the message-append transition |
| `Session.Session.QuickAction` | App.tsx:236-243 | sends the fixed hint or explain request |
| `Session.Session.ReplyArrived` | App.tsx:224-231 | performs the reply-append transition |
| `Session.Session.ClearChat` | App.tsx:426 | performs the clear transition |
| `Session.Session.SubmitStarted` | App.tsx:184-192 | performs the submit transition |
| `Session.Session.VerdictArrived` | App.tsx:193-204 | performs the verdict transition |
| `Session.Session.Fire` | App.tsx:93-116 | performs the fire transition and sends the fired record to the store, where a failed write is dropped |

## Left out

- Firebase and Gemini: the remote calls are not modelled. The store is the map inside `ProgressStore`. The problem generator, the grading oracle and the tutor are event payloads (`Option` where the call can fail).
- Real time: the 2000 ms delay and the interleaving of in-flight async calls are not modelled. The debounce is the discrete schedule, cancel and fire steps. Arbitrary interleavings of the event alphabet stand in for the orderings.
- Auth listener re-subscription on every problem change (App.tsx:77): not modelled as such. Each replay is the event sequence `AuthChange`, `ProgressArrival`, `StatsArrival`, which `Run` already covers. One difference: the restore in `OnStatsLoaded` reads the problem open when the fetch answers, not the one open when the listener was subscribed.
- The user-document write at sign-in (services/userService.ts:33-39) and the sign-in error messages (services/userService.ts:46-56): remote I/O and error text with no effect on the session.
- UI flags (loading, verifying, chat loading, modal, dropdown and sidebar visibility, difficulty choice) and all JSX. Also ProfileModal (floating-point rates), the question bank (only a sample id is used) and the other components.
- `Text.Lower`: maps ASCII letters only, not the full Unicode `toLowerCase`.
- `UserService.SortNewestFirst`: proves order and permutation, but not the stability of the sort among equal timestamps.
- The creation time shown beside history entries (components/HistorySidebar.tsx:198) is a `TimeCorner` marker, not a formatted time.
- `Session.Session.Fire`: follows the corrected merge against the live cache (see Findings), not the captured one.
- `Session.OnFire`: protects the cache only. A save that fires after sign-in but before the bulk load finds nothing cached and overwrites a stored solved record with unseen, in the source and in the corrected merge alike (`Session.FireBeforeLoadOverwritesStore`). No member promises that a stored status never drops; that would need the save to wait for the bulk load, which the source does not do.

## Findings

| source | as written | input that shows it | evidently intended | confidence | as-written member | corrected member |
|---|---|---|---|---|---|---|
| App.tsx:93-100 | the timer callback merges against the progress cache it closed over when scheduled; the cache is not a dependency of the effect, so the bulk load at sign-in (App.tsx:55-56) does not refresh that capture | signed out with the first catalog problem open; sign in; the store holds that problem as solved; the timer fires after the bulk load and before the restore | "don't downgrade status": the merge uses the cache as it is when the save fires, so a cached solved record is never overwritten with unseen (the store itself stays unprotected, see Left out) | not executed; medium (needs the two fetches to take longer than the 2 s delay) | `Session.SignInRaceLowersStatus` (on `Session.OnFireAsWritten`) | `Session.OnFire`, proved by `Session.FireNeverLowersCache` (and `Session.StepNeverLowersCache` for `TimerFire`) |
| App.tsx:367 | App passes the cache as `progressMap`, but the sidebar reads a `statusMap` prop (components/HistorySidebar.tsx:12, 131, 152), which is therefore undefined | the sidebar open on the catalog tab with an empty search and a non-empty catalog (the initial screen) | the sidebar receives each cached problem's status by id | not executed; high | `Session.SidebarAsWiredThrows` (on `Sidebar.RenderProps`) | `Session.SidebarStatusMap`, proved by `Session.SidebarShowsCachedStatus` |

=== FILE: lists.dfy ===
/** Order-preserving list operations the client code relies on:
    `Array.prototype.filter`, `reverse` on a copy, and the subsequence
    relation that both filters satisfy. */
module Lists {

  /** `r` can be obtained from `s` by deleting elements, keeping the order. */
  ghost predicate SubsequenceOf<T>(r: seq<T>, s: seq<T>)
    decreases |s|
  {
    if r == [] then true
    else if s == [] then false
    else if r[0] == s[0] then SubsequenceOf(r[1..], s[1..])
    else SubsequenceOf(r, s[1..])
  }

  lemma {:induction false} SubsequenceMultiset<T>(r: seq<T>, s: seq<T>)
    requires SubsequenceOf(r, s)
    ensures multiset(r) <= multiset(s)
    decreases |s|
  {
    if r == [] {
    } else if r[0] == s[0] {
      SubsequenceMultiset(r[1..], s[1..]);
      assert r == [r[0]] + r[1..];
      assert s == [s[0]] + s[1..];
    } else {
      SubsequenceMultiset(r, s[1..]);
      assert s == [s[0]] + s[1..];
    }
  }

  /** The elements of `s` that `keep` accepts, in their original order. */
  function Filter<T>(s: seq<T>, keep: T -> bool): (r: seq<T>)
    ensures SubsequenceOf(r, s)
    ensures multiset(r) <= multiset(s) && |r| <= |s|
    ensures forall i :: 0 <= i < |r| ==> keep(r[i])
    ensures forall x :: x in multiset(s) - multiset(r) ==> !keep(x)
    decreases |s|
  {
    if s == [] then []
    else
      var rest := Filter(s[1..], keep);
      assert s == [s[0]] + s[1..];
      if keep(s[0]) then
        assert ([s[0]] + rest)[1..] == rest;
        [s[0]] + rest
      else
        rest
  }

  /** A filter whose test accepts everything returns its input. */
  lemma {:induction false} FilterKeepsAll<T>(s: seq<T>, keep: T -> bool)
    requires forall x :: x in s ==> keep(x)
    ensures Filter(s, keep) == s
    decreases |s|
  {
    if s != [] {
      FilterKeepsAll(s[1..], keep);
      assert s == [s[0]] + s[1..];
    }
  }

  /** Two tests that agree on every element select the same elements. */
  lemma {:induction false} FilterSameTest<T>(s: seq<T>, keep1: T -> bool, keep2: T -> bool)
    requires forall x :: keep1(x) == keep2(x)
    ensures Filter(s, keep1) == Filter(s, keep2)
    decreases |s|
  {
    if s != [] {
      FilterSameTest(s[1..], keep1, keep2);
    }
  }

  /** `[...s].reverse()`: a reversed copy. */
  function Reverse<T>(s: seq<T>): (r: seq<T>)
    ensures |r| == |s|
    decreases |s|
  {
    if s == [] then [] else Reverse(s[1..]) + [s[0]]
  }

  lemma {:induction false} ReverseAt<T>(s: seq<T>, k: nat)
    requires k < |s|
    ensures Reverse(s)[k] == s[|s| - 1 - k]
    decreases |s|
  {
    if k < |s| - 1 {
      ReverseAt(s[1..], k);
    }
  }
}

=== FILE: progress.dfy ===
/** The status policy of the debounced save: what status the live verdict
    justifies, how it is merged with the cached status, and the record a
    fired save writes. */
module Progress {
  import opened Types

  /** Status justified by the live verdict alone. */
  function ComputeStatus(result: Option<VerificationResult>): (s: Status)
    ensures s == Solved <==> result.Some? && result.value.isCorrect
    ensures s == Attempted <==> result.Some? && !result.value.isCorrect
    ensures s == Unseen <==> result.None?
  {
    if result.Some? && result.value.isCorrect then Solved
    else if result.Some? then Attempted
    else Unseen
  }

  /** The larger of two statuses under unseen < attempted < solved. */
  function Max(a: Status, b: Status): (m: Status)
    ensures Rank(m) >= Rank(a) && Rank(m) >= Rank(b)
    ensures m == a || m == b
  {
    if Rank(a) >= Rank(b) then a else b
  }

  /** "Don't downgrade status": a cached `solved` wins, and a cached
      `attempted` survives a verdict-less save; otherwise the live status. */
  function MergeStatus(prior: Option<Status>, computed: Status): (s: Status)
    ensures prior.Some? ==> s == Max(prior.value, computed)
    ensures prior.None? ==> s == computed
  {
    if prior == Some(Solved) then Solved
    else if prior == Some(Attempted) && computed == Unseen then Attempted
    else computed
  }

  function PriorStatus(prior: Option<UserProgress>): Option<Status>
  {
    if prior.Some? then Some(prior.value.status) else None
  }

  /** The record a fired save writes for `problemId`, given the cache entry
      it merges against and the session state it captured. */
  function SavedRecord(problemId: string, prior: Option<UserProgress>, code: string,
                       result: Option<VerificationResult>, chat: seq<ChatMessage>, now: int): (p: UserProgress)
    ensures p.problemId == problemId && p.lastCode == code && p.lastResult == result
    ensures p.chatHistory == chat && p.timestamp == now
    ensures prior.Some? ==> p.status == Max(prior.value.status, ComputeStatus(result))
    ensures prior.None? ==> p.status == ComputeStatus(result)
  {
    UserProgress(problemId, MergeStatus(PriorStatus(prior), ComputeStatus(result)), code, result, chat, now)
  }

  predicate IsCorrect(r: Option<VerificationResult>)
  {
    r.Some? && r.value.isCorrect
  }

  /** Cached status of one problem after saves with the given verdicts, in
      order, starting from `prior`. */
  function StatusAfter(prior: Option<Status>, results: seq<Option<VerificationResult>>): Option<Status>
    decreases |results|
  {
    if results == [] then prior
    else StatusAfter(Some(MergeStatus(prior, ComputeStatus(results[0]))), results[1..])
  }

  /** Whatever verdicts follow, the status never falls below where it started. */
  lemma {:induction false} StatusNeverRegresses(prior: Status, results: seq<Option<VerificationResult>>)
    ensures StatusAfter(Some(prior), results).Some?
    ensures Rank(StatusAfter(Some(prior), results).value) >= Rank(prior)
    decreases |results|
  {
    if results != [] {
      var next := MergeStatus(Some(prior), ComputeStatus(results[0]));
      StatusNeverRegresses(next, results[1..]);
    }
  }

  /** Status is monotone along the history: after a prefix it is never above
      the status after the whole history. */
  lemma {:induction false} StatusMonotoneAlongHistory(prior: Status, results: seq<Option<VerificationResult>>, k: nat)
    requires k <= |results|
    ensures StatusAfter(Some(prior), results[..k]).Some? && StatusAfter(Some(prior), results).Some?
    ensures Rank(StatusAfter(Some(prior), results[..k]).value) <= Rank(StatusAfter(Some(prior), results).value)
    decreases k
  {
    if k == 0 {
      assert results[..0] == [];
      StatusNeverRegresses(prior, results);
    } else {
      var next := MergeStatus(Some(prior), ComputeStatus(results[0]));
      assert results[..k][1..] == results[1..][..k - 1];
      StatusMonotoneAlongHistory(next, results[1..], k - 1);
    }
  }

  /** `solved` is reached exactly when some verdict was correct (or the
      problem was already solved): history alone never promotes to solved. */
  lemma {:induction false} SolvedIffSomeCorrect(prior: Option<Status>, results: seq<Option<VerificationResult>>)
    ensures StatusAfter(prior, results) == Some(Solved) <==>
            prior == Some(Solved) || exists i :: 0 <= i < |results| && IsCorrect(results[i])
    decreases |results|
  {
    if results != [] {
      var next := MergeStatus(prior, ComputeStatus(results[0]));
      SolvedIffSomeCorrect(Some(next), results[1..]);
      if exists i :: 0 <= i < |results| && IsCorrect(results[i]) {
        var i :| 0 <= i < |results| && IsCorrect(results[i]);
        if i > 0 {
          assert IsCorrect(results[1..][i - 1]);
        }
      }
      if exists j :: 0 <= j < |results[1..]| && IsCorrect(results[1..][j]) {
        var j :| 0 <= j < |results[1..]| && IsCorrect(results[1..][j]);
        assert IsCorrect(results[j + 1]);
      }
    }
  }

  /** A problem with no cached record stays `unseen` exactly while no
      verdict has arrived. */
  lemma {:induction false} UnseenIffNoVerdict(results: seq<Option<VerificationResult>>)
    requires |results| > 0
    ensures StatusAfter(None, results) == Some(Unseen) <==> forall i :: 0 <= i < |results| ==> results[i].None?
    decreases |results|
  {
    var first := ComputeStatus(results[0]);
    if |results| == 1 {
      assert results[1..] == [];
    } else {
      StatusNeverRegresses(first, results[1..]);
      if first == Unseen {
        UnseenAfterUnseen(results[1..]);
      }
    }
  }

  lemma {:induction false} UnseenAfterUnseen(results: seq<Option<VerificationResult>>)
    ensures StatusAfter(Some(Unseen), results) == Some(Unseen) <==> forall i :: 0 <= i < |results| ==> results[i].None?
    decreases |results|
  {
    if results != [] {
      var next := MergeStatus(Some(Unseen), ComputeStatus(results[0]));
      if next == Unseen {
        UnseenAfterUnseen(results[1..]);
        assert forall i :: 1 <= i < |results| ==> results[i] == results[1..][i - 1];
      } else {
        StatusNeverRegresses(next, results[1..]);
      }
    }
  }
}

=== FILE: session.dfy ===
/** The practice page's session controller and progress synchroniser:
    signed-in user, open problem, code, verdict and chat transcript, the
    per-problem progress cache, the generated-problem history and the one
    debounced save that may be pending.

    Each event the page reacts to is a pure transition `On...` on a
    `SessionState` value; the class `Session` holds the same state in fields
    and its methods are proved to perform exactly those transitions. The
    debounce timer is the `pending` field: every change to the code, the
    verdict, the transcript, the problem or the user cancels it and, when a
    user and a problem are both present, schedules a new one; `Fire` is the
    timer expiring. Wall-clock time enters only as the `now` parameters. */
module Session {
  import opened Types
  import opened Text
  import opened Progress
  import opened UserService
  import Sidebar

  const GreetingOpening := "Hi! I'm ready to help you with \""
  const GreetingClosing := "\".\n\nAsk me for a hint if you get stuck!"

  /** The tutor's opening message for a problem: a tutor message that names
      the problem's title right after the fixed opening. */
  function Greeting(title: string): (g: ChatMessage)
    ensures g.role == ModelRole
    ensures |g.text| == |GreetingOpening| + |title| + |GreetingClosing|
    ensures g.text[..|GreetingOpening|] == GreetingOpening
    ensures g.text[|GreetingOpening|..|GreetingOpening| + |title|] == title
    ensures g.text[|GreetingOpening| + |title|..] == GreetingClosing
  {
    ChatMessage(ModelRole, GreetingOpening + title + GreetingClosing)
  }

  const ChatFailureReply := "Sorry, I encountered an error. Please try again."
  const HintRequest := "Can you give me a small hint for this problem without showing the code?"
  const ExplainRequest := "Can you explain the problem requirements in simple terms?"

  /** A scheduled save: what the timer callback closed over when the effect
      ran. `prior` is the cache entry of its problem at that moment. */
  datatype PendingSave = PendingSave(
    user: User,
    problem: Problem,
    code: string,
    result: Option<VerificationResult>,
    chat: seq<ChatMessage>,
    prior: Option<UserProgress>)

  datatype SessionState = SessionState(
    user: Option<User>,
    currentProblem: Option<Problem>,
    code: string,
    result: Option<VerificationResult>,
    chatMessages: seq<ChatMessage>,
    progressMap: map<string, UserProgress>,
    stats: UserStats,
    problemHistory: seq<Problem>,
    pending: Option<PendingSave>)

  const Initial := SessionState(None, None, "", None, [], map[], ZeroStats, [], None)

  function Lookup(m: map<string, UserProgress>, id: string): Option<UserProgress>
  {
    if id in m then Some(m[id]) else None
  }

  /** A pending save holds exactly the current user, problem, code, verdict
      and transcript: it can never commit a superseded context. */
  predicate CaptureIsCurrent(s: SessionState)
  {
    s.pending.Some? ==>
      && s.user == Some(s.pending.value.user)
      && s.currentProblem == Some(s.pending.value.problem)
      && s.code == s.pending.value.code
      && s.result == s.pending.value.result
      && s.chatMessages == s.pending.value.chat
  }

  /** The cache entry a pending save captured is still the cache entry. */
  predicate CaptureIsFresh(s: SessionState)
  {
    s.pending.Some? ==> s.pending.value.prior == Lookup(s.progressMap, s.pending.value.problem.id)
  }

  // ---------------------------------------------------------------------
  // The debounce: cancel, schedule, re-run

  /** `clearTimeout`: no save is pending and nothing else changes. */
  function Cancel(s: SessionState): (t: SessionState)
    ensures t.pending.None? && t.(pending := s.pending) == s
  {
    s.(pending := None)
  }

  /** `setTimeout`: one save is pending, over the current context and the
      current cache entry of the open problem; nothing else changes. */
  function Schedule(s: SessionState): (t: SessionState)
    requires s.pending.None? && s.user.Some? && s.currentProblem.Some?
    ensures t.pending.Some? && CaptureIsCurrent(t) && CaptureIsFresh(t)
    ensures t.(pending := None) == s
  {
    s.(pending := Some(PendingSave(s.user.value, s.currentProblem.value, s.code, s.result, s.chatMessages,
                                   Lookup(s.progressMap, s.currentProblem.value.id))))
  }

  /** The persistence effect re-running after one of its inputs changed:
      the old timer is cleared, and a new one is set only when a user is
      signed in and a problem is open. */
  function SaveEffect(s: SessionState): (t: SessionState)
    ensures t.pending.Some? <==> s.user.Some? && s.currentProblem.Some?
    ensures CaptureIsCurrent(t) && CaptureIsFresh(t)
    ensures t.(pending := s.pending) == s
  {
    var c := Cancel(s);
    if s.user.Some? && s.currentProblem.Some? then Schedule(c) else c
  }

  // ---------------------------------------------------------------------
  // Identity transitions and the bulk load

  /** The auth listener's synchronous part: the user is replaced; on
      sign-out the cache is emptied and the stats zeroed. */
  function OnAuthChanged(s: SessionState, u: Option<User>): (t: SessionState)
    ensures t.user == u
    ensures u.None? ==> t.progressMap == map[] && t.stats == ZeroStats
    ensures u.Some? ==> t.progressMap == s.progressMap && t.stats == s.stats
    ensures t.currentProblem == s.currentProblem && t.code == s.code && t.result == s.result
    ensures t.chatMessages == s.chatMessages && t.problemHistory == s.problemHistory
    ensures t.pending.Some? <==> u.Some? && s.currentProblem.Some?
    ensures CaptureIsCurrent(t) && CaptureIsFresh(t)
  {
    if u.Some? then SaveEffect(s.(user := u))
    else SaveEffect(s.(user := None, progressMap := map[], stats := ZeroStats))
  }

  /** The bulk fetch answered: the cache is replaced wholesale by the
      fetched map. No input of the persistence effect changes, so a pending
      save keeps what it captured. */
  function OnProgressLoaded(s: SessionState, progress: map<string, UserProgress>): (t: SessionState)
    ensures t.progressMap == progress
    ensures t.pending == s.pending && t.(progressMap := s.progressMap) == s
  {
    s.(progressMap := progress)
  }

  /** The stats fetch answered: stats are replaced, and when the fetched
      map holds the open problem its code, verdict and transcript are
      restored from it. */
  function OnStatsLoaded(s: SessionState, stats: UserStats, progress: map<string, UserProgress>): (t: SessionState)
    ensures t.stats == stats
    ensures t.user == s.user && t.currentProblem == s.currentProblem
    ensures t.progressMap == s.progressMap && t.problemHistory == s.problemHistory
    ensures s.currentProblem.Some? && s.currentProblem.value.id in progress ==>
              && t.code == progress[s.currentProblem.value.id].lastCode
              && t.result == progress[s.currentProblem.value.id].lastResult
              && t.chatMessages == progress[s.currentProblem.value.id].chatHistory
              && (t.pending.Some? <==> s.user.Some?)
              && CaptureIsCurrent(t) && CaptureIsFresh(t)
    ensures !(s.currentProblem.Some? && s.currentProblem.value.id in progress) ==> t == s.(stats := stats)
  {
    if s.currentProblem.Some? && s.currentProblem.value.id in progress then
      var saved := progress[s.currentProblem.value.id];
      SaveEffect(s.(stats := stats, code := saved.lastCode, result := saved.lastResult, chatMessages := saved.chatHistory))
    else
      s.(stats := stats)
  }

  // ---------------------------------------------------------------------
  // Problem selection and generation

  /** Opening a problem: the open one again changes nothing; otherwise a
      signed-in user's cached record is restored verbatim, and without one
      the session starts from the problem's skeleton and a greeting. */
  function OnSelectProblem(s: SessionState, p: Problem): (t: SessionState)
    ensures s.currentProblem.Some? && s.currentProblem.value.id == p.id ==> t == s
    ensures !(s.currentProblem.Some? && s.currentProblem.value.id == p.id) ==>
              && t.currentProblem == Some(p)
              && t.user == s.user && t.progressMap == s.progressMap
              && t.stats == s.stats && t.problemHistory == s.problemHistory
              && CaptureIsCurrent(t) && CaptureIsFresh(t)
              && (t.pending.Some? <==> s.user.Some?)
    ensures !(s.currentProblem.Some? && s.currentProblem.value.id == p.id) && s.user.Some? && p.id in s.progressMap ==>
              && t.code == s.progressMap[p.id].lastCode
              && t.result == s.progressMap[p.id].lastResult
              && t.chatMessages == s.progressMap[p.id].chatHistory
    ensures !(s.currentProblem.Some? && s.currentProblem.value.id == p.id) && !(s.user.Some? && p.id in s.progressMap) ==>
              t.code == p.initialCode && t.result.None? && t.chatMessages == [Greeting(p.title)]
  {
    if s.currentProblem.Some? && s.currentProblem.value.id == p.id then s
    else if s.user.Some? && p.id in s.progressMap then
      var saved := s.progressMap[p.id];
      SaveEffect(s.(currentProblem := Some(p), code := saved.lastCode, result := saved.lastResult,
                    chatMessages := saved.chatHistory))
    else
      SaveEffect(s.(currentProblem := Some(p), code := p.initialCode, result := None, chatMessages := [Greeting(p.title)]))
  }

  /** The synchronous part of a request for a new problem: verdict and
      transcript are cleared before the generator is asked. */
  function OnNewProblemRequested(s: SessionState): (t: SessionState)
    ensures t.result.None? && t.chatMessages == []
    ensures t.user == s.user && t.currentProblem == s.currentProblem && t.code == s.code
    ensures t.progressMap == s.progressMap && t.stats == s.stats && t.problemHistory == s.problemHistory
    ensures t.pending.Some? <==> s.user.Some? && s.currentProblem.Some?
    ensures CaptureIsCurrent(t) && CaptureIsFresh(t)
  {
    SaveEffect(s.(result := None, chatMessages := []))
  }

  /** The generated problem under the id the clock gives it. */
  function Stamped(generated: Problem, now: nat): Problem
  {
    generated.(id := DecimalString(now))
  }

  /** The generator answered: the problem, re-identified by the clock, is
      appended to the history and opened with its skeleton and a greeting. */
  function OnNewProblemArrived(s: SessionState, generated: Problem, now: nat): (t: SessionState)
    ensures t.problemHistory == s.problemHistory + [Stamped(generated, now)]
    ensures t.currentProblem == Some(Stamped(generated, now))
    ensures t.currentProblem.value.id == DecimalString(now)
    ensures t.code == generated.initialCode && t.chatMessages == [Greeting(generated.title)]
    ensures t.result == s.result && t.user == s.user && t.progressMap == s.progressMap && t.stats == s.stats
    ensures t.pending.Some? <==> s.user.Some?
    ensures CaptureIsCurrent(t) && CaptureIsFresh(t)
  {
    var unique := Stamped(generated, now);
    SaveEffect(s.(problemHistory := s.problemHistory + [unique], currentProblem := Some(unique),
                  code := generated.initialCode, chatMessages := [Greeting(generated.title)]))
  }

  // ---------------------------------------------------------------------
  // Small edits

  /** The effect re-runs only when an input really changed value. */
  function AfterEdit(s: SessionState, t: SessionState): SessionState
  {
    if t == s then s else SaveEffect(t)
  }

  /** Reset: the skeleton comes back and the verdict goes; the transcript stays. */
  function OnReset(s: SessionState): (t: SessionState)
    ensures s.currentProblem.None? ==> t == s
    ensures s.currentProblem.Some? ==> t.code == s.currentProblem.value.initialCode && t.result.None?
    ensures s.currentProblem.Some? && s.code == s.currentProblem.value.initialCode && s.result.None? ==> t == s
    ensures s.currentProblem.Some? && (s.code != s.currentProblem.value.initialCode || s.result.Some?) ==>
              (t.pending.Some? <==> s.user.Some?) && CaptureIsCurrent(t) && CaptureIsFresh(t)
    ensures t.chatMessages == s.chatMessages && t.currentProblem == s.currentProblem && t.user == s.user
    ensures t.progressMap == s.progressMap && t.stats == s.stats && t.problemHistory == s.problemHistory
    ensures CaptureIsCurrent(s) ==> CaptureIsCurrent(t)
    ensures CaptureIsFresh(s) ==> CaptureIsFresh(t)
  {
    if s.currentProblem.None? then s
    else AfterEdit(s, s.(code := s.currentProblem.value.initialCode, result := None))
  }

  /** The editor reports new code. */
  function OnEditCode(s: SessionState, code: string): (t: SessionState)
    ensures t.code == code
    ensures t.(code := s.code, pending := s.pending) == s
    ensures code == s.code ==> t == s
    ensures code != s.code ==>
              (t.pending.Some? <==> s.user.Some? && s.currentProblem.Some?) && CaptureIsCurrent(t) && CaptureIsFresh(t)
    ensures CaptureIsCurrent(s) ==> CaptureIsCurrent(t)
    ensures CaptureIsFresh(s) ==> CaptureIsFresh(t)
  {
    AfterEdit(s, s.(code := code))
  }

  /** The learner's message is appended at once (only with a problem open). */
  function OnSendMessage(s: SessionState, text: string): (t: SessionState)
    ensures s.currentProblem.None? ==> t == s
    ensures s.currentProblem.Some? ==> t.chatMessages == s.chatMessages + [ChatMessage(UserRole, text)]
    ensures s.currentProblem.Some? ==> (t.pending.Some? <==> s.user.Some?) && CaptureIsCurrent(t) && CaptureIsFresh(t)
    ensures t.(chatMessages := s.chatMessages, pending := s.pending) == s
    ensures CaptureIsCurrent(s) ==> CaptureIsCurrent(t)
    ensures CaptureIsFresh(s) ==> CaptureIsFresh(t)
  {
    if s.currentProblem.None? then s
    else SaveEffect(s.(chatMessages := s.chatMessages + [ChatMessage(UserRole, text)]))
  }

  /** The tutor answered (`Some`) or the call threw (`None`): a tutor
      message is appended to whatever transcript is current. */
  function OnReplyArrived(s: SessionState, reply: Option<string>): (t: SessionState)
    ensures t.chatMessages == s.chatMessages + [ChatMessage(ModelRole, if reply.Some? then reply.value else ChatFailureReply)]
    ensures t.(chatMessages := s.chatMessages, pending := s.pending) == s
    ensures t.pending.Some? <==> s.user.Some? && s.currentProblem.Some?
    ensures CaptureIsCurrent(t) && CaptureIsFresh(t)
  {
    var text := if reply.Some? then reply.value else ChatFailureReply;
    SaveEffect(s.(chatMessages := s.chatMessages + [ChatMessage(ModelRole, text)]))
  }

  /** The chat panel's clear button. */
  function OnClearChat(s: SessionState): (t: SessionState)
    ensures t.chatMessages == []
    ensures t.(chatMessages := s.chatMessages, pending := s.pending) == s
    ensures t.pending.Some? <==> s.user.Some? && s.currentProblem.Some?
    ensures CaptureIsCurrent(t) && CaptureIsFresh(t)
  {
    SaveEffect(s.(chatMessages := []))
  }

  /** Submitting clears the verdict while the grading oracle works (only with a problem open). */
  function OnSubmitStarted(s: SessionState): (t: SessionState)
    ensures s.currentProblem.None? ==> t == s
    ensures s.currentProblem.Some? ==> t.result.None?
    ensures s.result.None? ==> t == s
    ensures s.currentProblem.Some? && s.result.Some? ==>
              (t.pending.Some? <==> s.user.Some?) && CaptureIsCurrent(t) && CaptureIsFresh(t)
    ensures t.(result := s.result, pending := s.pending) == s
    ensures CaptureIsCurrent(s) ==> CaptureIsCurrent(t)
    ensures CaptureIsFresh(s) ==> CaptureIsFresh(t)
  {
    if s.currentProblem.None? then s else AfterEdit(s, s.(result := None))
  }

  /** The grading oracle answered (`Some`), or the call threw (`None`) and the verdict stays cleared. */
  function OnVerdictArrived(s: SessionState, verdict: Option<VerificationResult>): (t: SessionState)
    ensures verdict.None? ==> t == s
    ensures verdict.Some? ==> t.result == verdict
    ensures verdict.Some? ==>
              (t.pending.Some? <==> s.user.Some? && s.currentProblem.Some?) && CaptureIsCurrent(t) && CaptureIsFresh(t)
    ensures t.(result := s.result, pending := s.pending) == s
    ensures CaptureIsCurrent(s) ==> CaptureIsCurrent(t)
    ensures CaptureIsFresh(s) ==> CaptureIsFresh(t)
  {
    if verdict.None? then s else SaveEffect(s.(result := verdict))
  }

  // ---------------------------------------------------------------------
  // The timer expiring

  /** The record a firing save writes, merged against the cache entry of
      its problem at the moment it fires. */
  function FiredRecord(s: SessionState, now: int): (r: UserProgress)
    requires s.pending.Some?
    ensures r.problemId == s.pending.value.problem.id
    ensures Lookup(s.progressMap, r.problemId).Some? ==>
              Rank(r.status) >= Rank(s.progressMap[r.problemId].status)
  {
    var p := s.pending.value;
    SavedRecord(p.problem.id, Lookup(s.progressMap, p.problem.id), p.code, p.result, p.chat, now)
  }

  /** The pending save fires: its record goes into the cache at once
      (optimistically) and the timer is gone. Without a pending save
      nothing happens. */
  function OnFire(s: SessionState, now: int): (t: SessionState)
    ensures s.pending.None? ==> t == s
    ensures s.pending.Some? ==>
              var id := s.pending.value.problem.id;
              && t.pending.None?
              && t.progressMap == s.progressMap[id := FiredRecord(s, now)]
              && t.(progressMap := s.progressMap, pending := s.pending) == s
  {
    if s.pending.None? then s
    else s.(progressMap := s.progressMap[s.pending.value.problem.id := FiredRecord(s, now)], pending := None)
  }

  /** The user id and record the fired save sends to the store. */
  function FiredWrite(s: SessionState, now: int): (w: (string, UserProgress))
    requires s.pending.Some?
    ensures w.0 == s.pending.value.user.id && w.1 == FiredRecord(s, now)
  {
    (s.pending.value.user.id, FiredRecord(s, now))
  }

  /** A fired save writes the session's own state under its own problem
      for its own user, with status max(cached, justified by the verdict). */
  lemma FireCommitsSessionState(s: SessionState, now: int)
    requires CaptureIsCurrent(s) && s.pending.Some?
    ensures s.user.Some? && s.currentProblem.Some?
    ensures FiredWrite(s, now).0 == s.user.value.id
    ensures FiredRecord(s, now).problemId == s.currentProblem.value.id
    ensures FiredRecord(s, now).lastCode == s.code
    ensures FiredRecord(s, now).lastResult == s.result
    ensures FiredRecord(s, now).chatHistory == s.chatMessages
    ensures FiredRecord(s, now).timestamp == now
    ensures FiredRecord(s, now).status ==
              if s.currentProblem.value.id in s.progressMap
              then Max(s.progressMap[s.currentProblem.value.id].status, ComputeStatus(s.result))
              else ComputeStatus(s.result)
  {
  }

  // ---------------------------------------------------------------------
  // Events and runs

  datatype Event =
    | AuthChange(u: Option<User>)
    | ProgressArrival(progress: map<string, UserProgress>)
    | StatsArrival(stats: UserStats, fetched: map<string, UserProgress>)
    | Select(problem: Problem)
    | GenerateRequest
    | GenerateArrival(generated: Problem, clock: nat)
    | ResetCode
    | EditCode(newCode: string)
    | Send(text: string)
    | ReplyArrival(reply: Option<string>)
    | ClearChat
    | SubmitStart
    | VerdictArrival(verdict: Option<VerificationResult>)
    | TimerFire(firedAt: int)

  /** One event. Only auth changes touch the user; only selection and a
      generated problem change the open problem; the history only grows,
      and only when a generated problem arrives. */
  function Step(s: SessionState, e: Event): (t: SessionState)
    ensures !e.AuthChange? ==> t.user == s.user
    ensures !e.Select? && !e.GenerateArrival? ==> t.currentProblem == s.currentProblem
    ensures !e.GenerateArrival? ==> t.problemHistory == s.problemHistory
    ensures e.GenerateArrival? ==> t.problemHistory == s.problemHistory + [Stamped(e.generated, e.clock)]
  {
    match e
    case AuthChange(u) => OnAuthChanged(s, u)
    case ProgressArrival(progress) => OnProgressLoaded(s, progress)
    case StatsArrival(stats, fetched) => OnStatsLoaded(s, stats, fetched)
    case Select(p) => OnSelectProblem(s, p)
    case GenerateRequest => OnNewProblemRequested(s)
    case GenerateArrival(g, clock) => OnNewProblemArrived(s, g, clock)
    case ResetCode => OnReset(s)
    case EditCode(c) => OnEditCode(s, c)
    case Send(text) => OnSendMessage(s, text)
    case ReplyArrival(reply) => OnReplyArrived(s, reply)
    case ClearChat => OnClearChat(s)
    case SubmitStart => OnSubmitStarted(s)
    case VerdictArrival(v) => OnVerdictArrived(s, v)
    case TimerFire(now) => OnFire(s, now)
  }

  /** A sequence of events, in order. The history only grows, by exactly
      the generated problems that arrive; without auth events the user
      stays the same. */
  function Run(s: SessionState, events: seq<Event>): (t: SessionState)
    ensures s.problemHistory <= t.problemHistory
    ensures t.problemHistory == s.problemHistory + GeneratedIn(events)
    ensures |t.problemHistory| == |s.problemHistory| + |GeneratedIn(events)|
    ensures (forall i :: 0 <= i < |events| ==> !events[i].AuthChange?) ==> t.user == s.user
    decreases |events|
  {
    if events == [] then s else Run(Step(s, events[0]), events[1..])
  }

  /** The generated problems arriving in a sequence of events. */
  function GeneratedIn(events: seq<Event>): seq<Problem>
    decreases |events|
  {
    if events == [] then []
    else if events[0].GenerateArrival? then [Stamped(events[0].generated, events[0].clock)] + GeneratedIn(events[1..])
    else GeneratedIn(events[1..])
  }

  /** The debounce: an event that changes any input of the persistence
      effect (user, problem, code, verdict, transcript) leaves a save
      pending exactly when a user and a problem are present, over the
      current context and the current cache entry. */
  lemma StepReschedulesOnChange(s: SessionState, e: Event)
    ensures var t := Step(s, e);
            (t.user, t.currentProblem, t.code, t.result, t.chatMessages) != (s.user, s.currentProblem, s.code, s.result, s.chatMessages) ==>
              (t.pending.Some? <==> t.user.Some? && t.currentProblem.Some?) && CaptureIsCurrent(t) && CaptureIsFresh(t)
  {
  }

  /** Every event keeps the pending save in step with the session. */
  lemma StepKeepsCaptureCurrent(s: SessionState, e: Event)
    requires CaptureIsCurrent(s)
    ensures CaptureIsCurrent(Step(s, e))
  {
  }

  /** Only the arrival of the bulk load can leave a pending save holding an
      outdated cache entry. */
  lemma StepKeepsCaptureFresh(s: SessionState, e: Event)
    requires CaptureIsFresh(s) && !e.ProgressArrival?
    ensures CaptureIsFresh(Step(s, e))
  {
  }

  /** From the start, whatever happens, at most one save is pending and it
      holds the live context; none is pending without a user and a problem. */
  lemma {:induction false} RunKeepsCaptureCurrent(s: SessionState, events: seq<Event>)
    requires CaptureIsCurrent(s)
    ensures CaptureIsCurrent(Run(s, events))
    ensures Run(s, events).pending.Some? ==> Run(s, events).user.Some? && Run(s, events).currentProblem.Some?
    decreases |events|
  {
    if events != [] {
      StepKeepsCaptureCurrent(s, events[0]);
      RunKeepsCaptureCurrent(Step(s, events[0]), events[1..]);
    }
  }

  /** Events that neither sign out nor deliver a bulk load. */
  predicate KeepsCache(e: Event)
  {
    !(e.AuthChange? && e.u.None?) && !e.ProgressArrival?
  }

  /** A cache entry never disappears and its status never falls, except
      when the cache is replaced (sign-out, bulk load). */
  predicate CacheGrows(before: map<string, UserProgress>, after: map<string, UserProgress>)
  {
    forall id :: id in before ==> id in after && Rank(after[id].status) >= Rank(before[id].status)
  }

  lemma StepNeverLowersCache(s: SessionState, e: Event)
    requires KeepsCache(e)
    ensures CacheGrows(s.progressMap, Step(s, e).progressMap)
  {
  }

  /** A fired save never removes or lowers a cache entry, whatever the
      state, including right after a bulk load replaced the cache. */
  lemma FireNeverLowersCache(s: SessionState, now: int)
    ensures CacheGrows(s.progressMap, OnFire(s, now).progressMap)
  {
  }

  lemma {:induction false} RunNeverLowersCache(s: SessionState, events: seq<Event>)
    requires forall i :: 0 <= i < |events| ==> KeepsCache(events[i])
    ensures CacheGrows(s.progressMap, Run(s, events).progressMap)
    decreases |events|
  {
    if events != [] {
      StepNeverLowersCache(s, events[0]);
      RunNeverLowersCache(Step(s, events[0]), events[1..]);
    }
  }

  // ---------------------------------------------------------------------
  // The save as the source writes it

  /** The timer callback as written merges against the cache entry it
      closed over when it was scheduled, not the live one. */
  function OnFireAsWritten(s: SessionState, now: int): (t: SessionState)
    requires s.pending.Some?
    ensures t.pending.None?
    ensures s.pending.value.problem.id in t.progressMap
    ensures t.progressMap[s.pending.value.problem.id].status ==
              MergeStatus(PriorStatus(s.pending.value.prior), ComputeStatus(s.pending.value.result))
  {
    var p := s.pending.value;
    var record := SavedRecord(p.problem.id, p.prior, p.code, p.result, p.chat, now);
    s.(progressMap := s.progressMap[p.problem.id := record], pending := None)
  }

  /** While the captured entry is still the cache entry, both agree. */
  lemma AsWrittenAgreesWhileFresh(s: SessionState, now: int)
    requires s.pending.Some? && CaptureIsFresh(s)
    ensures OnFireAsWritten(s, now) == OnFire(s, now)
  {
  }

  const Learner := User("u1", "User", "", None)
  const Mux := Problem("static-mux2", "2:1 Multiplexer", Easy, "", "module mux2();")
  const SolvedMux := UserProgress("static-mux2", Solved, "module mux2(); endmodule",
                                  Some(VerificationResult(true, "", None)), [], 1)

  /** A signed-out learner has the catalog's first problem open; the store
      holds it as solved. Sign-in schedules a save against the empty cache;
      the bulk load then puts the solved record in the cache; if the timer
      fires before the restore, the save as written overwrites it with
      status unseen, while the live-cache merge keeps it solved. */
  lemma SignInRaceLowersStatus()
    ensures var s := Step(Step(Step(Initial, Select(Mux)), AuthChange(Some(Learner))),
                          ProgressArrival(map["static-mux2" := SolvedMux]));
            && s.pending.Some?
            && "static-mux2" in s.progressMap && s.progressMap["static-mux2"].status == Solved
            && OnFireAsWritten(s, 2).progressMap["static-mux2"].status == Unseen
            && OnFire(s, 2).progressMap["static-mux2"].status == Solved
  {
    var s1 := Step(Initial, Select(Mux));
    var s2 := Step(s1, AuthChange(Some(Learner)));
    var s3 := Step(s2, ProgressArrival(map["static-mux2" := SolvedMux]));
    assert s2.pending.value.prior == None;
    assert s3.pending.value.prior == None && s3.pending.value.result == None;
  }

  /** The live-cache merge protects the cache, not the store. After sign-in
      the timer can fire before the bulk load arrives: no entry is cached
      yet, so the save writes status unseen over the store's solved record. */
  lemma FireBeforeLoadOverwritesStore()
    ensures var s := Step(Step(Initial, Select(Mux)), AuthChange(Some(Learner)));
            var docs := map[("u1", "static-mux2") := SolvedMux];
            && s.pending.Some?
            && Stored(docs, "u1", "static-mux2") == Some(SolvedMux)
            && var w := FiredWrite(s, 2);
               && w.0 == "u1" && w.1.problemId == "static-mux2"
               && Stored(docs[(w.0, w.1.problemId) := w.1], "u1", "static-mux2") == Some(w.1)
               && w.1.status == Unseen
  {
    var s1 := Step(Initial, Select(Mux));
    var s2 := Step(s1, AuthChange(Some(Learner)));
    assert s2.pending.value.result == None;
  }

  // ---------------------------------------------------------------------
  // The sidebar's status prop

  /** The status of every cached record, by problem id: what the sidebar
      needs for its icons. */
  function SidebarStatusMap(progressMap: map<string, UserProgress>): (m: map<string, Status>)
    ensures m.Keys == progressMap.Keys
    ensures forall id :: id in m ==> m[id] == progressMap[id].status
  {
    map id | id in progressMap :: progressMap[id].status
  }

  /** With the status map derived from the cache, every catalog entry shows
      the icon of its cached status. */
  lemma SidebarShowsCachedStatus(s: SessionState, tab: Sidebar.Tab, library: seq<Problem>, query: string)
    ensures var view := Sidebar.RenderProps(true, tab, library, s.problemHistory,
                                            if s.currentProblem.Some? then Some(s.currentProblem.value.id) else None,
                                            query, Some(SidebarStatusMap(s.progressMap)));
            && view.Shown?
            && (tab == Sidebar.LibraryTab ==> forall i :: 0 <= i < |view.entries| ==>
                  view.entries[i].corner ==
                    Sidebar.IconCorner(Sidebar.StatusIcon(PriorStatus(Lookup(s.progressMap, view.entries[i].problem.id)))))
  {
  }

  /** The sidebar as wired: its status prop is never passed (the cache goes
      out under another name), so the open catalog tab with any entry
      reads a status from an undefined map and throws. */
  lemma SidebarAsWiredThrows(s: SessionState, library: seq<Problem>)
    requires |library| > 0
    ensures Sidebar.RenderProps(true, Sidebar.LibraryTab, library, s.problemHistory,
                                if s.currentProblem.Some? then Some(s.currentProblem.value.id) else None,
                                "", None) == Sidebar.TypeError
  {
    Sidebar.EmptyQueryKeepsAll(library, s.problemHistory);
  }

  // ---------------------------------------------------------------------
  // The session object

  class Session {
    var user: Option<User>
    var currentProblem: Option<Problem>
    var code: string
    var result: Option<VerificationResult>
    var chatMessages: seq<ChatMessage>
    var progressMap: map<string, UserProgress>
    var stats: UserStats
    var problemHistory: seq<Problem>
    var pending: Option<PendingSave>

    function State(): SessionState
      reads this
    {
      SessionState(user, currentProblem, code, result, chatMessages, progressMap, stats, problemHistory, pending)
    }

    ghost predicate Valid()
      reads this
    {
      CaptureIsCurrent(State())
    }

    constructor ()
      ensures State() == Initial && Valid()
    {
      user, currentProblem, code, result, chatMessages := None, None, "", None, [];
      progressMap, stats, problemHistory, pending := map[], ZeroStats, [], None;
    }

    /** Clears the timer, if one is set. */
    method CancelPending()
      modifies this
      ensures State() == Cancel(old(State()))
    {
      pending := None;
    }

    /** Sets the timer over the current context; at most one is ever set. */
    method SchedulePending()
      requires pending.None? && user.Some? && currentProblem.Some?
      modifies this
      ensures State() == Schedule(old(State()))
    {
      var prior := if currentProblem.value.id in progressMap then Some(progressMap[currentProblem.value.id]) else None;
      pending := Some(PendingSave(user.value, currentProblem.value, code, result, chatMessages, prior));
    }

    method RerunSaveEffect()
      modifies this
      ensures State() == SaveEffect(old(State())) && Valid()
    {
      CancelPending();
      if user.Some? && currentProblem.Some? {
        SchedulePending();
      }
    }

    method AuthStateChanged(u: Option<User>)
      modifies this
      ensures State() == OnAuthChanged(old(State()), u) && Valid()
    {
      user := u;
      if u.None? {
        progressMap := map[];
        stats := ZeroStats;
      }
      RerunSaveEffect();
    }

    method ProgressFetched(progress: map<string, UserProgress>)
      requires Valid()
      modifies this
      ensures State() == OnProgressLoaded(old(State()), progress) && Valid()
    {
      progressMap := progress;
    }

    method StatsFetched(newStats: UserStats, progress: map<string, UserProgress>)
      requires Valid()
      modifies this
      ensures State() == OnStatsLoaded(old(State()), newStats, progress) && Valid()
    {
      stats := newStats;
      if currentProblem.Some? && currentProblem.value.id in progress {
        var saved := progress[currentProblem.value.id];
        code, result, chatMessages := saved.lastCode, saved.lastResult, saved.chatHistory;
        RerunSaveEffect();
      }
    }

    /** A whole sign-in without interleaved events: the listener's update,
        the bulk fetch, the stats fetch and the restore. */
    method SignIn(u: User, store: ProgressStore, fetchFails: bool, statsFails: bool)
      modifies this
      ensures user == Some(u) && Valid()
      ensures progressMap == if fetchFails then map[] else Partition(store.docs, u.id)
      ensures Summarises(stats, if statsFails then map[] else Partition(store.docs, u.id))
      ensures exists snapshot :: && DistinctIds(snapshot)
                                 && MapOf(snapshot) == (if statsFails then map[] else Partition(store.docs, u.id))
                                 && stats == StatsOf(DataOf(snapshot))
      ensures State() == OnStatsLoaded(OnProgressLoaded(OnAuthChanged(old(State()), Some(u)), progressMap), stats, progressMap)
      ensures currentProblem == old(currentProblem) && problemHistory == old(problemHistory)
      ensures currentProblem.Some? && currentProblem.value.id in progressMap ==>
                && code == progressMap[currentProblem.value.id].lastCode
                && result == progressMap[currentProblem.value.id].lastResult
                && chatMessages == progressMap[currentProblem.value.id].chatHistory
      ensures pending.Some? <==> currentProblem.Some?
    {
      AuthStateChanged(Some(u));
      var progress := store.GetAllUserProgress(u.id, fetchFails);
      ProgressFetched(progress);
      var fetchedStats := store.GetUserStats(u.id, statsFails);
      StatsFetched(fetchedStats, progress);
    }

    method SelectProblem(p: Problem)
      requires Valid()
      modifies this
      ensures State() == OnSelectProblem(old(State()), p) && Valid()
    {
      if currentProblem.Some? && currentProblem.value.id == p.id {
        return;
      }
      currentProblem := Some(p);
      if user.Some? && p.id in progressMap {
        var saved := progressMap[p.id];
        code, result, chatMessages := saved.lastCode, saved.lastResult, saved.chatHistory;
      } else {
        code, result, chatMessages := p.initialCode, None, [Greeting(p.title)];
      }
      RerunSaveEffect();
    }

    /** The first render opens the catalog's first problem, or asks for a
        generated one when the catalog is empty. */
    method Mount(catalog: seq<Problem>)
      requires Valid()
      modifies this
      ensures |catalog| > 0 ==> State() == OnSelectProblem(old(State()), catalog[0])
      ensures |catalog| == 0 ==> State() == OnNewProblemRequested(old(State()))
      ensures Valid()
    {
      if |catalog| > 0 {
        SelectProblem(catalog[0]);
      } else {
        NewProblemRequested();
      }
    }

    method NewProblemRequested()
      modifies this
      ensures State() == OnNewProblemRequested(old(State())) && Valid()
    {
      result, chatMessages := None, [];
      RerunSaveEffect();
    }

    method NewProblemArrived(generated: Problem, now: nat)
      modifies this
      ensures State() == OnNewProblemArrived(old(State()), generated, now) && Valid()
    {
      var unique := generated.(id := DecimalString(now));
      problemHistory := problemHistory + [unique];
      currentProblem := Some(unique);
      code, chatMessages := generated.initialCode, [Greeting(generated.title)];
      RerunSaveEffect();
    }

    method Reset()
      requires Valid()
      modifies this
      ensures State() == OnReset(old(State())) && Valid()
    {
      if currentProblem.Some? {
        var changed := code != currentProblem.value.initialCode || result.Some?;
        code, result := currentProblem.value.initialCode, None;
        if changed {
          RerunSaveEffect();
        }
      }
    }

    method EditCode(newCode: string)
      requires Valid()
      modifies this
      ensures State() == OnEditCode(old(State()), newCode) && Valid()
    {
      if newCode != code {
        code := newCode;
        RerunSaveEffect();
      }
    }

    method SendMessage(text: string)
      requires Valid()
      modifies this
      ensures State() == OnSendMessage(old(State()), text) && Valid()
    {
      if currentProblem.None? {
        return;
      }
      chatMessages := chatMessages + [ChatMessage(UserRole, text)];
      RerunSaveEffect();
    }

    /** The hint and explain shortcuts send a fixed request. */
    method QuickAction(hint: bool)
      requires Valid()
      modifies this
      ensures State() == OnSendMessage(old(State()), if hint then HintRequest else ExplainRequest) && Valid()
    {
      SendMessage(if hint then HintRequest else ExplainRequest);
    }

    method ReplyArrived(reply: Option<string>)
      modifies this
      ensures State() == OnReplyArrived(old(State()), reply) && Valid()
    {
      var text := if reply.Some? then reply.value else ChatFailureReply;
      chatMessages := chatMessages + [ChatMessage(ModelRole, text)];
      RerunSaveEffect();
    }

    method ClearChat()
      modifies this
      ensures State() == OnClearChat(old(State())) && Valid()
    {
      chatMessages := [];
      RerunSaveEffect();
    }

    method SubmitStarted()
      requires Valid()
      modifies this
      ensures State() == OnSubmitStarted(old(State())) && Valid()
    {
      if currentProblem.Some? && result.Some? {
        result := None;
        RerunSaveEffect();
      }
    }

    method VerdictArrived(verdict: Option<VerificationResult>)
      requires Valid()
      modifies this
      ensures State() == OnVerdictArrived(old(State()), verdict) && Valid()
    {
      if verdict.Some? {
        result := verdict;
        RerunSaveEffect();
      }
    }

    /** The timer expires: the merged record goes into the cache and is sent
        to the store, where a failed write is dropped. */
    method Fire(now: int, store: ProgressStore, saveFails: bool)
      requires Valid()
      modifies this, store
      ensures State() == OnFire(old(State()), now) && Valid()
      ensures old(pending).None? ==> store.docs == old(store.docs)
      ensures old(pending).Some? ==>
                var w := FiredWrite(old(State()), now);
                store.docs == if saveFails then old(store.docs) else old(store.docs)[(w.0, w.1.problemId) := w.1]
    {
      if pending.None? {
        return;
      }
      var p := pending.value;
      var prior := if p.problem.id in progressMap then Some(progressMap[p.problem.id]) else None;
      var record := SavedRecord(p.problem.id, prior, p.code, p.result, p.chat, now);
      progressMap := progressMap[p.problem.id := record];
      pending := None;
      store.SaveUserProgress(p.user.id, record, saveFails);
    }
  }
}

=== FILE: sidebar.dfy ===
/** The problem sidebar: search over the catalog and over the generated
    history, newest-first history display, the origin label and the status
    icon of each entry. */
module Sidebar {
  import opened Types
  import opened Text
  import opened Lists

  /** Case-insensitive `includes`. */
  predicate MatchesQuery(field: string, query: string)
  {
    Includes(Lower(field), Lower(query))
  }

  /** Catalog entries match on their title or on their difficulty name. */
  function LibraryMatch(query: string): Problem -> bool
  {
    (p: Problem) => MatchesQuery(p.title, query) || MatchesQuery(DifficultyName(p.difficulty), query)
  }

  /** Generated entries match on their title only. */
  function HistoryMatch(query: string): Problem -> bool
  {
    (p: Problem) => MatchesQuery(p.title, query)
  }

  function FilteredLibrary(library: seq<Problem>, query: string): (r: seq<Problem>)
    ensures SubsequenceOf(r, library) && |r| <= |library|
    ensures forall i :: 0 <= i < |r| ==>
              MatchesQuery(r[i].title, query) || MatchesQuery(DifficultyName(r[i].difficulty), query)
    ensures forall p :: p in multiset(library) - multiset(r) ==>
              !MatchesQuery(p.title, query) && !MatchesQuery(DifficultyName(p.difficulty), query)
  {
    Filter(library, LibraryMatch(query))
  }

  function FilteredHistory(history: seq<Problem>, query: string): (r: seq<Problem>)
    ensures SubsequenceOf(r, history) && |r| <= |history|
    ensures forall i :: 0 <= i < |r| ==> MatchesQuery(r[i].title, query)
    ensures forall p :: p in multiset(history) - multiset(r) ==> !MatchesQuery(p.title, query)
  {
    Filter(history, HistoryMatch(query))
  }

  /** The generated list as displayed: the filtered history, newest first. */
  function ShownHistory(history: seq<Problem>, query: string): (r: seq<Problem>)
    ensures |r| == |FilteredHistory(history, query)|
    ensures forall k :: 0 <= k < |r| ==> r[k] == FilteredHistory(history, query)[|r| - 1 - k]
  {
    var f := FilteredHistory(history, query);
    forall k | 0 <= k < |f|
      ensures Reverse(f)[k] == f[|f| - 1 - k]
    {
      ReverseAt(f, k);
    }
    Reverse(f)
  }

  /** An empty search keeps every entry of both lists. */
  lemma EmptyQueryKeepsAll(library: seq<Problem>, history: seq<Problem>)
    ensures FilteredLibrary(library, "") == library
    ensures FilteredHistory(history, "") == history
  {
    assert Lower("") == "";
    forall p: Problem
      ensures LibraryMatch("")(p) && HistoryMatch("")(p)
    {
      IncludesEmpty(Lower(p.title));
    }
    FilterKeepsAll(library, LibraryMatch(""));
    FilterKeepsAll(history, HistoryMatch(""));
  }

  /** Search ignores the case of the query. */
  lemma QueryCaseInsensitive(library: seq<Problem>, history: seq<Problem>, query: string)
    ensures FilteredLibrary(library, Lower(query)) == FilteredLibrary(library, query)
    ensures FilteredHistory(history, Lower(query)) == FilteredHistory(history, query)
  {
    LowerIdempotent(query);
    FilterSameTest(library, LibraryMatch(Lower(query)), LibraryMatch(query));
    FilterSameTest(history, HistoryMatch(Lower(query)), HistoryMatch(query));
  }

  /** The small caption telling catalog problems from generated ones. */
  function OriginLabel(id: string): (caption: string)
    ensures caption == "Standard" <==> "static" <= id
    ensures caption == "AI Gen" <==> !("static" <= id)
  {
    if "static" <= id then "Standard" else "AI Gen"
  }

  /** Generated problems get a clock reading as id, so they are never labelled "Standard". */
  lemma GeneratedIdsAreAIGen(now: nat)
    ensures OriginLabel(DecimalString(now)) == "AI Gen"
  {
    var id := DecimalString(now);
    assert IsDigit(id[0]);
    assert id[0] != "static"[0];
  }

  datatype Icon = CheckMark | YellowRing | GreyRing

  /** The icon shown beside a catalog entry for its status, if any. */
  function StatusIcon(status: Option<Status>): (icon: Icon)
    ensures icon == CheckMark <==> status == Some(Solved)
    ensures icon == YellowRing <==> status == Some(Attempted)
    ensures icon == GreyRing <==> status == None || status == Some(Unseen)
  {
    match status
    case Some(Solved) => CheckMark
    case Some(Attempted) => YellowRing
    case _ => GreyRing
  }

  datatype Tab = LibraryTab | HistoryTab

  /** What the right-hand corner of an entry shows: the status icon for
      catalog entries, a creation time for generated ones. */
  datatype Corner = IconCorner(icon: Icon) | TimeCorner

  datatype Entry = Entry(problem: Problem, isActive: bool, corner: Corner, origin: string)

  function StatusOf(statusMap: map<string, Status>, id: string): Option<Status>
  {
    if id in statusMap then Some(statusMap[id]) else None
  }

  function EntryFor(p: Problem, currentId: Option<string>, isLibrary: bool, statusMap: map<string, Status>): Entry
  {
    Entry(p, currentId == Some(p.id),
          if isLibrary then IconCorner(StatusIcon(StatusOf(statusMap, p.id))) else TimeCorner,
          OriginLabel(p.id))
  }

  /** The entries the sidebar lists; nothing at all while it is closed. */
  function Render(isOpen: bool, tab: Tab, library: seq<Problem>, history: seq<Problem>,
                  currentId: Option<string>, query: string, statusMap: map<string, Status>): (view: Option<seq<Entry>>)
    ensures view.None? <==> !isOpen
    ensures isOpen && tab == LibraryTab ==>
              |view.value| == |FilteredLibrary(library, query)| &&
              forall i :: 0 <= i < |view.value| ==>
                view.value[i].problem == FilteredLibrary(library, query)[i] &&
                view.value[i].corner == IconCorner(StatusIcon(StatusOf(statusMap, view.value[i].problem.id)))
    ensures isOpen && tab == HistoryTab ==>
              |view.value| == |FilteredHistory(history, query)| &&
              forall i :: 0 <= i < |view.value| ==>
                view.value[i].problem == ShownHistory(history, query)[i] && view.value[i].corner == TimeCorner
    ensures isOpen ==> forall i :: 0 <= i < |view.value| ==>
              view.value[i].isActive == (currentId == Some(view.value[i].problem.id)) &&
              view.value[i].origin == OriginLabel(view.value[i].problem.id)
  {
    if !isOpen then None
    else if tab == LibraryTab then Some(LibraryEntries(library, currentId, query, statusMap))
    else Some(HistoryEntries(history, currentId, query))
  }

  /** The catalog tab: the filtered catalog, each entry with its status icon. */
  function LibraryEntries(library: seq<Problem>, currentId: Option<string>, query: string,
                          statusMap: map<string, Status>): (r: seq<Entry>)
    ensures |r| == |FilteredLibrary(library, query)|
    ensures forall i :: 0 <= i < |r| ==>
              r[i].problem == FilteredLibrary(library, query)[i] &&
              r[i].corner == IconCorner(StatusIcon(StatusOf(statusMap, r[i].problem.id))) &&
              r[i].isActive == (currentId == Some(r[i].problem.id)) && r[i].origin == OriginLabel(r[i].problem.id)
  {
    Entries(FilteredLibrary(library, query), currentId, true, statusMap)
  }

  /** The history tab: the filtered history newest first, each entry with its time. */
  function HistoryEntries(history: seq<Problem>, currentId: Option<string>, query: string): (r: seq<Entry>)
    ensures |r| == |FilteredHistory(history, query)|
    ensures forall i :: 0 <= i < |r| ==>
              r[i].problem == ShownHistory(history, query)[i] && r[i].corner == TimeCorner &&
              r[i].isActive == (currentId == Some(r[i].problem.id)) && r[i].origin == OriginLabel(r[i].problem.id)
  {
    Entries(ShownHistory(history, query), currentId, false, map[])
  }

  function Entries(shown: seq<Problem>, currentId: Option<string>, isLibrary: bool, statusMap: map<string, Status>): (r: seq<Entry>)
    ensures |r| == |shown|
    ensures forall i :: 0 <= i < |r| ==>
              r[i].problem == shown[i] && r[i].isActive == (currentId == Some(shown[i].id)) &&
              r[i].origin == OriginLabel(shown[i].id) &&
              r[i].corner == if isLibrary then IconCorner(StatusIcon(StatusOf(statusMap, shown[i].id))) else TimeCorner
  {
    seq(|shown|, i requires 0 <= i < |shown| => EntryFor(shown[i], currentId, isLibrary, statusMap))
  }

  /** How many entries the open tab lists. */
  function ListedCount(tab: Tab, library: seq<Problem>, history: seq<Problem>, query: string): nat
  {
    if tab == LibraryTab then |FilteredLibrary(library, query)| else |FilteredHistory(history, query)|
  }

  /** What mounting the sidebar produces when its status-map prop may be
      missing: nothing while closed, a type error as soon as one entry reads
      its status from a missing map, and otherwise the entries. */
  datatype Outcome = Hidden | TypeError | Shown(entries: seq<Entry>)

  function RenderProps(isOpen: bool, tab: Tab, library: seq<Problem>, history: seq<Problem>,
                       currentId: Option<string>, query: string, statusMap: Option<map<string, Status>>): (o: Outcome)
    ensures o == Hidden <==> !isOpen
    ensures isOpen && statusMap.Some? ==>
              o == Shown(Render(isOpen, tab, library, history, currentId, query, statusMap.value).value)
    ensures isOpen && statusMap.None? ==>
              (o == TypeError <==> ListedCount(tab, library, history, query) > 0) &&
              (o != TypeError ==> o == Shown([]))
  {
    if !isOpen then Hidden
    else if statusMap.Some? then Shown(Render(isOpen, tab, library, history, currentId, query, statusMap.value).value)
    else if ListedCount(tab, library, history, query) > 0 then TypeError
    else Shown([])
  }
}

=== FILE: text.dfy ===
/** The string primitives the client code uses: ASCII `toLowerCase`,
    `includes`, `startsWith` and the decimal `toString` of a clock value. */
module Text {

  /** Lower-cases an ASCII capital; every other character is left alone. */
  function LowerChar(c: char): char
  {
    if 'A' <= c <= 'Z' then (c as int + 32) as char else c
  }

  function Lower(s: string): (r: string)
    ensures |r| == |s|
    ensures forall i :: 0 <= i < |s| ==> r[i] == LowerChar(s[i])
  {
    seq(|s|, i requires 0 <= i < |s| => LowerChar(s[i]))
  }

  lemma LowerIdempotent(s: string)
    ensures Lower(Lower(s)) == Lower(s)
  {
  }

  /** `sub` occurs in `s` starting at index `i`. */
  predicate OccursAt(s: string, sub: string, i: int)
  {
    0 <= i && i + |sub| <= |s| && s[i..i + |sub|] == sub
  }

  /** `s.includes(sub)`, searched left to right. */
  function Includes(s: string, sub: string): (b: bool)
    ensures b <==> exists i :: OccursAt(s, sub, i)
    decreases |s|
  {
    if sub <= s then
      assert OccursAt(s, sub, 0);
      true
    else if |s| == 0 then
      false
    else
      IncludesShift(s, sub);
      Includes(s[1..], sub)
  }

  /** When `sub` is not a prefix of `s`, its occurrences in `s` are those in `s[1..]`, shifted. */
  lemma IncludesShift(s: string, sub: string)
    requires |s| > 0 && !(sub <= s)
    ensures (exists i :: OccursAt(s, sub, i)) <==> (exists j :: OccursAt(s[1..], sub, j))
  {
    if exists i :: OccursAt(s, sub, i) {
      var i :| OccursAt(s, sub, i);
      assert i != 0;
      assert s[1..][i - 1..i - 1 + |sub|] == s[i..i + |sub|];
      assert OccursAt(s[1..], sub, i - 1);
    }
    if exists j :: OccursAt(s[1..], sub, j) {
      var j :| OccursAt(s[1..], sub, j);
      assert s[1..][j..j + |sub|] == s[j + 1..j + 1 + |sub|];
      assert OccursAt(s, sub, j + 1);
    }
  }

  /** Every string includes the empty string. */
  lemma IncludesEmpty(s: string)
    ensures Includes(s, "")
  {
  }

  function DigitChar(d: nat): char
    requires d < 10
  {
    ('0' as int + d) as char
  }

  predicate IsDigit(c: char)
  {
    '0' <= c <= '9'
  }

  /** `n.toString()` for a non-negative integer: its decimal digits. */
  function DecimalString(n: nat): (r: string)
    ensures |r| > 0
    ensures forall i :: 0 <= i < |r| ==> IsDigit(r[i])
  {
    if n < 10 then [DigitChar(n)] else DecimalString(n / 10) + [DigitChar(n % 10)]
  }

  /** Reads a decimal string back; the partner of DecimalString. */
  function DecimalValue(s: string): nat
    requires forall i :: 0 <= i < |s| ==> IsDigit(s[i])
  {
    if s == [] then 0
    else
      assert IsDigit(s[|s| - 1]);
      10 * DecimalValue(s[..|s| - 1]) + (s[|s| - 1] as int - '0' as int)
  }

  lemma {:induction false} DecimalRoundTrip(n: nat)
    ensures DecimalValue(DecimalString(n)) == n
  {
    if n >= 10 {
      DecimalRoundTrip(n / 10);
      var r := DecimalString(n);
      assert r[..|r| - 1] == DecimalString(n / 10);
    }
  }
}

=== FILE: types.dfy ===
/** The entities the practice tool passes around: problems, grader verdicts,
    tutor transcripts, signed-in users and the per-problem progress record. */
module Types {

  datatype Option<+T> = None | Some(value: T)

  /** The fixed, ordered set of difficulty tiers. */
  datatype Difficulty = Easy | Medium | Hard

  /** The name a difficulty tier is shown and searched under. */
  function DifficultyName(d: Difficulty): string
  {
    match d
    case Easy => "Easy"
    case Medium => "Medium"
    case Hard => "Hard"
  }

  datatype Problem = Problem(
    id: string,
    title: string,
    difficulty: Difficulty,
    description: string,
    initialCode: string)

  /** The grading oracle's verdict; `optimizationTips` is optional. */
  datatype VerificationResult = VerificationResult(
    isCorrect: bool,
    feedback: string,
    optimizationTips: Option<string>)

  /** Who wrote a chat message: the learner or the tutor model. */
  datatype Role = UserRole | ModelRole

  datatype ChatMessage = ChatMessage(role: Role, text: string)

  datatype User = User(id: string, name: string, email: string, avatarUrl: Option<string>)

  /** Completion marker of one problem, ordered by commitment level. */
  datatype Status = Unseen | Attempted | Solved

  /** Position of a status in the order unseen < attempted < solved. */
  function Rank(s: Status): nat
  {
    match s
    case Unseen => 0
    case Attempted => 1
    case Solved => 2
  }

  /** The unit of persistence, keyed by (user id, problem id). */
  datatype UserProgress = UserProgress(
    problemId: string,
    status: Status,
    lastCode: string,
    lastResult: Option<VerificationResult>,
    chatHistory: seq<ChatMessage>,
    timestamp: int)
}

=== FILE: user_service.dfy ===
/** The progress store behind `users/{userId}/progress/{problemId}`, the
    statistics derived from a user's records, and the mapping from the
    identity provider's account to a `User`. A failed remote call is a
    boolean parameter `fails`; every failure degrades instead of throwing. */
module UserService {
  import opened Types
  import opened Lists

  // ---------------------------------------------------------------------
  // Identity provider account -> User

  /** What the identity provider reports about a signed-in account. */
  datatype AuthAccount = AuthAccount(uid: string, displayName: Option<string>,
                                     email: Option<string>, photoURL: Option<string>)

  /** JavaScript `v || d` on an optional string: absent and "" are falsy. */
  function OrElse(v: Option<string>, d: string): (r: string)
    ensures v.Some? && v.value != "" ==> r == v.value
    ensures v.None? || v.value == "" ==> r == d
  {
    if v.Some? && v.value != "" then v.value else d
  }

  /** The `User` built from an account on sign-in, on a synchronous check
      and in the auth-change callback. */
  function ToUser(a: AuthAccount): (u: User)
    ensures u.id == a.uid
    ensures u.name != ""
    ensures u.name == "User" || Some(u.name) == a.displayName
    ensures a.displayName.Some? && a.displayName.value != "" ==> u.name == a.displayName.value
    ensures u.email == "" || Some(u.email) == a.email
    ensures a.email.Some? && a.email.value != "" ==> u.email == a.email.value
    ensures u.avatarUrl.Some? <==> a.photoURL.Some? && a.photoURL.value != ""
    ensures u.avatarUrl.Some? ==> u.avatarUrl == a.photoURL
  {
    User(a.uid, OrElse(a.displayName, "User"), OrElse(a.email, ""),
         if a.photoURL.Some? && a.photoURL.value != "" then a.photoURL else None)
  }

  /** The signed-in user, if any, as the app sees it. */
  function CurrentUser(account: Option<AuthAccount>): (u: Option<User>)
    ensures u.None? <==> account.None?
    ensures u.Some? ==> u.value.id == account.value.uid && u.value == ToUser(account.value)
  {
    if account.Some? then Some(ToUser(account.value)) else None
  }

  // ---------------------------------------------------------------------
  // Statistics

  datatype UserStats = UserStats(totalSolved: nat, totalAttempted: nat, recentActivity: seq<UserProgress>)

  const ZeroStats := UserStats(0, 0, [])

  /** Timestamps never increase along `s`. */
  predicate NewestFirst(s: seq<UserProgress>)
  {
    forall i, j :: 0 <= i < j < |s| ==> s[i].timestamp >= s[j].timestamp
  }

  /** Inserts `x` before the first record that is not newer than it. */
  function InsertByTime(x: UserProgress, s: seq<UserProgress>): (r: seq<UserProgress>)
    requires NewestFirst(s)
    ensures NewestFirst(r)
    ensures multiset(r) == multiset(s) + multiset{x} && |r| == |s| + 1
    decreases |s|
  {
    if s == [] || s[0].timestamp <= x.timestamp then
      PrependNewest(x, s);
      [x] + s
    else
      var rest := InsertByTime(x, s[1..]);
      assert s == [s[0]] + s[1..];
      HeadLeadsInsertion(x, s, rest);
      PrependNewest(s[0], rest);
      [s[0]] + rest
  }

  /** Inserting an older record into the tail of a newest-first list keeps
      every element no newer than its head. */
  lemma HeadLeadsInsertion(x: UserProgress, s: seq<UserProgress>, rest: seq<UserProgress>)
    requires NewestFirst(s) && s != [] && x.timestamp < s[0].timestamp
    requires multiset(rest) == multiset(s[1..]) + multiset{x}
    ensures forall e :: e in rest ==> e.timestamp <= s[0].timestamp
  {
    forall e | e in rest
      ensures e.timestamp <= s[0].timestamp
    {
      assert e in multiset(rest);
      if e != x {
        assert e in multiset(s[1..]);
        var m :| 0 <= m < |s[1..]| && s[1..][m] == e;
        assert s[m + 1] == e;
      }
    }
  }

  /** A record no older than every record of a newest-first list can lead it. */
  lemma PrependNewest(h: UserProgress, t: seq<UserProgress>)
    requires NewestFirst(t)
    requires forall e :: e in t ==> e.timestamp <= h.timestamp
    ensures NewestFirst([h] + t)
  {
    var r := [h] + t;
    forall i, j | 0 <= i < j < |r|
      ensures r[i].timestamp >= r[j].timestamp
    {
      if i > 0 {
        assert r[i] == t[i - 1] && r[j] == t[j - 1];
      } else {
        assert r[j] == t[j - 1];
      }
    }
  }

  /** `values.sort((a, b) => b.timestamp - a.timestamp)`: newest first. */
  function SortNewestFirst(values: seq<UserProgress>): (r: seq<UserProgress>)
    ensures NewestFirst(r)
    ensures multiset(r) == multiset(values) && |r| == |values|
    decreases |values|
  {
    if values == [] then []
    else
      assert values == [values[0]] + values[1..];
      InsertByTime(values[0], SortNewestFirst(values[1..]))
  }

  function Min(a: nat, b: nat): nat
  {
    if a <= b then a else b
  }

  function IsSolved(p: UserProgress): bool
  {
    p.status == Solved
  }

  /** The five (or fewer) newest records, newest first. */
  function Recent(values: seq<UserProgress>): (r: seq<UserProgress>)
    ensures |r| == Min(5, |values|)
    ensures multiset(r) <= multiset(values)
    ensures NewestFirst(r)
    ensures forall x, j :: x in multiset(values) - multiset(r) && 0 <= j < |r| ==> x.timestamp <= r[j].timestamp
  {
    var sorted := SortNewestFirst(values);
    RecentAreNewest(sorted, Min(5, |values|));
    sorted[..Min(5, |values|)]
  }

  /** The statistics of a user's records, listed in the store's order. */
  function StatsOf(values: seq<UserProgress>): (s: UserStats)
    ensures s.totalAttempted == |values|
    ensures s.totalSolved <= s.totalAttempted
    ensures |s.recentActivity| == Min(5, |values|)
    ensures multiset(s.recentActivity) <= multiset(values)
    ensures NewestFirst(s.recentActivity)
    ensures forall r, j :: r in multiset(values) - multiset(s.recentActivity) && 0 <= j < |s.recentActivity|
              ==> r.timestamp <= s.recentActivity[j].timestamp
  {
    UserStats(|Filter(values, IsSolved)|, |values|, Recent(values))
  }

  lemma RecentAreNewest(sorted: seq<UserProgress>, k: nat)
    requires NewestFirst(sorted) && k <= |sorted|
    ensures multiset(sorted[..k]) <= multiset(sorted)
    ensures NewestFirst(sorted[..k])
    ensures forall r, j :: r in multiset(sorted) - multiset(sorted[..k]) && 0 <= j < k
              ==> r.timestamp <= sorted[j].timestamp
  {
    assert sorted == sorted[..k] + sorted[k..];
    assert multiset(sorted) == multiset(sorted[..k]) + multiset(sorted[k..]);
    forall r, j | r in multiset(sorted) - multiset(sorted[..k]) && 0 <= j < k
      ensures r.timestamp <= sorted[j].timestamp
    {
      assert r in sorted[k..];
      var m :| 0 <= m < |sorted[k..]| && sorted[k..][m] == r;
      assert sorted[k + m] == r;
    }
  }

  /** `totalSolved` counts exactly the solved records. */
  lemma SolvedCountIsSolvedRecords(values: seq<UserProgress>)
    ensures StatsOf(values).totalSolved == |Filter(values, IsSolved)|
    ensures forall p :: p in Filter(values, IsSolved) <==> p in values && p.status == Solved
  {
    var solved := Filter(values, IsSolved);
    forall p | p in values && p.status == Solved
      ensures p in solved
    {
      assert p in multiset(values);
      assert IsSolved(p);
      assert p !in multiset(values) - multiset(solved);
    }
    forall p | p in solved
      ensures p in values && p.status == Solved
    {
      var i :| 0 <= i < |solved| && solved[i] == p;
      assert IsSolved(solved[i]);
      assert p in multiset(solved);
    }
  }

  // ---------------------------------------------------------------------
  // The store

  /** A document of a query snapshot: its id and its data. */
  datatype Doc = Doc(id: string, data: UserProgress)

  predicate DistinctIds(snapshot: seq<Doc>)
  {
    forall i, j :: 0 <= i < j < |snapshot| ==> snapshot[i].id != snapshot[j].id
  }

  /** The map a forEach over `snapshot` builds, each document stored under
      its id; where ids repeat, the last document written wins. */
  function MapOf(snapshot: seq<Doc>): (m: map<string, UserProgress>)
    ensures snapshot != [] ==> snapshot[|snapshot| - 1].id in m && m[snapshot[|snapshot| - 1].id] == snapshot[|snapshot| - 1].data
    decreases |snapshot|
  {
    if snapshot == [] then map[]
    else MapOf(snapshot[..|snapshot| - 1])[snapshot[|snapshot| - 1].id := snapshot[|snapshot| - 1].data]
  }

  /** The documents' data in snapshot order: `Object.values` of `MapOf`. */
  function DataOf(snapshot: seq<Doc>): (r: seq<UserProgress>)
    ensures |r| == |snapshot|
    ensures forall i :: 0 <= i < |snapshot| ==> r[i] == snapshot[i].data
  {
    seq(|snapshot|, i requires 0 <= i < |snapshot| => snapshot[i].data)
  }

  lemma {:induction false} MapOfDistinct(snapshot: seq<Doc>)
    requires DistinctIds(snapshot)
    ensures |MapOf(snapshot)| == |snapshot|
    ensures forall i :: 0 <= i < |snapshot| ==> snapshot[i].id in MapOf(snapshot) && MapOf(snapshot)[snapshot[i].id] == snapshot[i].data
    ensures forall id :: id in MapOf(snapshot) ==> exists i :: 0 <= i < |snapshot| && snapshot[i].id == id
    decreases |snapshot|
  {
    MapOfKeysListed(snapshot);
    MapOfHoldsEach(snapshot);
    if snapshot != [] {
      var init := snapshot[..|snapshot| - 1];
      var last := snapshot[|snapshot| - 1];
      assert forall i :: 0 <= i < |init| ==> init[i] == snapshot[i];
      MapOfDistinct(init);
      var m0 := MapOf(init);
      assert MapOf(snapshot) == m0[last.id := last.data];
      assert last.id !in m0 by {
        forall id | id in m0 ensures id != last.id {
          var i :| 0 <= i < |init| && init[i].id == id;
        }
      }
      assert |m0[last.id := last.data]| == |m0| + 1;
    }
  }

  /** With distinct ids, every document is stored under its id with its data. */
  lemma {:induction false} MapOfHoldsEach(snapshot: seq<Doc>)
    requires DistinctIds(snapshot)
    ensures forall i :: 0 <= i < |snapshot| ==> snapshot[i].id in MapOf(snapshot) && MapOf(snapshot)[snapshot[i].id] == snapshot[i].data
    decreases |snapshot|
  {
    if snapshot != [] {
      var init := snapshot[..|snapshot| - 1];
      var last := snapshot[|snapshot| - 1];
      assert forall i :: 0 <= i < |init| ==> init[i] == snapshot[i];
      MapOfHoldsEach(init);
      assert MapOf(snapshot) == MapOf(init)[last.id := last.data];
      forall i | 0 <= i < |snapshot|
        ensures snapshot[i].id in MapOf(snapshot) && MapOf(snapshot)[snapshot[i].id] == snapshot[i].data
      {
        if i < |init| {
          assert snapshot[i] == init[i] && snapshot[i].id != last.id;
        }
      }
    }
  }

  /** With distinct ids, the values in document order are the built map's
      values: position i holds what the map stores under document i's id. */
  lemma DataOfIsMapValues(snapshot: seq<Doc>)
    requires DistinctIds(snapshot)
    ensures forall i :: 0 <= i < |snapshot| ==> snapshot[i].id in MapOf(snapshot) && DataOf(snapshot)[i] == MapOf(snapshot)[snapshot[i].id]
  {
    MapOfHoldsEach(snapshot);
  }

  /** Every key of the built map is the id of some document. */
  lemma {:induction false} MapOfKeysListed(snapshot: seq<Doc>)
    ensures forall id :: id in MapOf(snapshot) ==> exists i :: 0 <= i < |snapshot| && snapshot[i].id == id
    decreases |snapshot|
  {
    if snapshot != [] {
      var init := snapshot[..|snapshot| - 1];
      MapOfKeysListed(init);
      forall id | id in MapOf(snapshot)
        ensures exists i :: 0 <= i < |snapshot| && snapshot[i].id == id
      {
        var last := snapshot[|snapshot| - 1];
        assert MapOf(snapshot) == MapOf(init)[last.id := last.data];
        if id == last.id {
          assert snapshot[|snapshot| - 1].id == id;
        } else {
          assert id in MapOf(init);
          var i :| 0 <= i < |init| && init[i].id == id;
          assert snapshot[i] == init[i];
        }
      }
    }
  }

  /** Absent key: no record. */
  function Stored(docs: map<(string, string), UserProgress>, userId: string, problemId: string): Option<UserProgress>
  {
    if (userId, problemId) in docs then Some(docs[(userId, problemId)]) else None
  }

  /** One user's partition of the store, keyed by problem id. */
  function Partition(docs: map<(string, string), UserProgress>, userId: string): (m: map<string, UserProgress>)
    ensures forall pid :: pid in m <==> (userId, pid) in docs
    ensures forall pid :: pid in m ==> m[pid] == docs[(userId, pid)]
  {
    map k | k in docs && k.0 == userId :: k.1 := docs[k]
  }

  /** Saving a record makes it what a later read of its key returns and
      leaves every other key as it was. */
  lemma SaveThenRead(docs: map<(string, string), UserProgress>, userId: string, p: UserProgress)
    ensures Stored(docs[(userId, p.problemId) := p], userId, p.problemId) == Some(p)
    ensures Partition(docs[(userId, p.problemId) := p], userId) == Partition(docs, userId)[p.problemId := p]
    ensures forall u, pid :: (u, pid) != (userId, p.problemId) ==>
              Stored(docs[(userId, p.problemId) := p], u, pid) == Stored(docs, u, pid)
  {
  }

  /** The problem ids whose stored record is solved. */
  function SolvedIds(collection: map<string, UserProgress>): set<string>
  {
    set id | id in collection && collection[id].status == Solved
  }

  /** `stats` are the statistics of a user's stored collection: every
      record counted, the solved ones counted apart, and the (at most) five
      newest records listed newest first. */
  ghost predicate Summarises(stats: UserStats, collection: map<string, UserProgress>)
  {
    && stats.totalAttempted == |collection|
    && stats.totalSolved == |SolvedIds(collection)|
    && |stats.recentActivity| == Min(5, |collection|)
    && NewestFirst(stats.recentActivity)
    && (forall r :: r in stats.recentActivity ==> r in collection.Values)
    && (forall id, j :: id in collection && collection[id] !in stats.recentActivity && 0 <= j < |stats.recentActivity|
          ==> collection[id].timestamp <= stats.recentActivity[j].timestamp)
  }

  /** Statistics over a snapshot are the statistics of the map built from it. */
  lemma StatsOfSnapshot(snapshot: seq<Doc>)
    requires DistinctIds(snapshot)
    ensures Summarises(StatsOf(DataOf(snapshot)), MapOf(snapshot))
  {
    MapOfDistinct(snapshot);
    SolvedCountOfSnapshot(snapshot);
    SolvedCountIsSolvedRecords(DataOf(snapshot));
    RecentFromSnapshot(snapshot);
    LeftOutFromSnapshot(snapshot);
  }

  /** The recent records of a snapshot's statistics are min(5, size) values
      of its map, newest first. */
  lemma RecentFromSnapshot(snapshot: seq<Doc>)
    requires DistinctIds(snapshot)
    ensures |StatsOf(DataOf(snapshot)).recentActivity| == Min(5, |MapOf(snapshot)|)
    ensures NewestFirst(StatsOf(DataOf(snapshot)).recentActivity)
    ensures forall r :: r in StatsOf(DataOf(snapshot)).recentActivity ==> r in MapOf(snapshot).Values
  {
    MapOfDistinct(snapshot);
    DataInMap(snapshot);
    var values := DataOf(snapshot);
    var recent := StatsOf(values).recentActivity;
    forall r | r in recent
      ensures r in values
    {
      assert r in multiset(recent);
      assert r in multiset(values);
    }
  }

  /** A stored record missing from the recent list is no newer than any listed one. */
  lemma LeftOutFromSnapshot(snapshot: seq<Doc>)
    requires DistinctIds(snapshot)
    ensures var m := MapOf(snapshot);
            var recent := StatsOf(DataOf(snapshot)).recentActivity;
            forall id, j :: id in m && m[id] !in recent && 0 <= j < |recent| ==> m[id].timestamp <= recent[j].timestamp
  {
    MapValuesListed(snapshot);
    var values := DataOf(snapshot);
    LeftOutBound(MapOf(snapshot), values, StatsOf(values).recentActivity);
  }

  /** Every value of the map built from a snapshot is some document's data. */
  lemma MapValuesListed(snapshot: seq<Doc>)
    requires DistinctIds(snapshot)
    ensures forall id :: id in MapOf(snapshot) ==> MapOf(snapshot)[id] in DataOf(snapshot)
  {
    MapOfDistinct(snapshot);
    forall id | id in MapOf(snapshot)
      ensures MapOf(snapshot)[id] in DataOf(snapshot)
    {
      var i :| 0 <= i < |snapshot| && snapshot[i].id == id;
      assert DataOf(snapshot)[i] == MapOf(snapshot)[id];
    }
  }

  /** When every stored record is listed and the recent cut dominates what
      it leaves out, a stored record outside the cut is no newer than any in it. */
  lemma LeftOutBound(m: map<string, UserProgress>, values: seq<UserProgress>, recent: seq<UserProgress>)
    requires forall id :: id in m ==> m[id] in values
    requires forall r, j :: r in multiset(values) - multiset(recent) && 0 <= j < |recent| ==> r.timestamp <= recent[j].timestamp
    ensures forall id, j :: id in m && m[id] !in recent && 0 <= j < |recent| ==> m[id].timestamp <= recent[j].timestamp
  {
    forall id, j | id in m && m[id] !in recent && 0 <= j < |recent|
      ensures m[id].timestamp <= recent[j].timestamp
    {
      assert m[id] in multiset(values) && m[id] !in multiset(recent);
      assert m[id] in multiset(values) - multiset(recent);
    }
  }

  /** Filtering a concatenation keeps as many elements as filtering each part. */
  lemma {:induction false} FilterCountConcat<T>(a: seq<T>, b: seq<T>, keep: T -> bool)
    ensures |Filter(a + b, keep)| == |Filter(a, keep)| + |Filter(b, keep)|
    decreases |a|
  {
    if a == [] {
      assert a + b == b;
    } else {
      var ab := a + b;
      assert ab[0] == a[0] && ab[1..] == a[1..] + b;
      FilterCountConcat(a[1..], b, keep);
      assert |Filter(ab, keep)| == |Filter(ab[1..], keep)| + (if keep(a[0]) then 1 else 0);
      assert |Filter(a, keep)| == |Filter(a[1..], keep)| + (if keep(a[0]) then 1 else 0);
    }
  }

  /** Over a snapshot with distinct ids, the solved records listed are as
      many as the solved ids of the built map. */
  lemma {:induction false} SolvedCountOfSnapshot(snapshot: seq<Doc>)
    requires DistinctIds(snapshot)
    ensures |Filter(DataOf(snapshot), IsSolved)| == |SolvedIds(MapOf(snapshot))|
    decreases |snapshot|
  {
    if snapshot != [] {
      var n := |snapshot| - 1;
      var pre := snapshot[..n];
      var d := snapshot[n];
      assert DistinctIds(pre);
      SolvedCountOfSnapshot(pre);
      LastIdIsNew(snapshot);
      DataOfLast(snapshot);
      FilterCountConcat(DataOf(pre), [d.data], IsSolved);
      assert |Filter([d.data], IsSolved)| == if IsSolved(d.data) then 1 else 0 by {
        assert [d.data][1..] == [];
      }
      SolvedIdsAdd(MapOf(pre), d.id, d.data);
    }
  }

  /** With distinct ids, the last document's id is not yet in the map built
      from the ones before it. */
  lemma LastIdIsNew(snapshot: seq<Doc>)
    requires DistinctIds(snapshot) && snapshot != []
    ensures snapshot[|snapshot| - 1].id !in MapOf(snapshot[..|snapshot| - 1])
  {
    var n := |snapshot| - 1;
    var pre := snapshot[..n];
    assert DistinctIds(pre);
    MapOfDistinct(pre);
    assert forall i :: 0 <= i < |pre| ==> pre[i] == snapshot[i];
  }

  lemma DataOfLast(snapshot: seq<Doc>)
    requires snapshot != []
    ensures DataOf(snapshot) == DataOf(snapshot[..|snapshot| - 1]) + [snapshot[|snapshot| - 1].data]
  {
  }

  /** Adding a new key adds one solved id exactly when its record is solved. */
  lemma SolvedIdsAdd(m: map<string, UserProgress>, id: string, r: UserProgress)
    requires id !in m
    ensures |SolvedIds(m[id := r])| == |SolvedIds(m)| + if r.status == Solved then 1 else 0
  {
    if r.status == Solved {
      assert SolvedIds(m[id := r]) == SolvedIds(m) + {id};
    } else {
      assert SolvedIds(m[id := r]) == SolvedIds(m);
    }
  }

  /** Every document's data is a value of the map built from the snapshot. */
  lemma DataInMap(snapshot: seq<Doc>)
    requires DistinctIds(snapshot)
    ensures forall r :: r in DataOf(snapshot) ==> r in MapOf(snapshot).Values
  {
    MapOfDistinct(snapshot);
    forall r | r in DataOf(snapshot)
      ensures r in MapOf(snapshot).Values
    {
      var i :| 0 <= i < |DataOf(snapshot)| && DataOf(snapshot)[i] == r;
      assert MapOf(snapshot)[snapshot[i].id] == r;
    }
  }

  /** The remote document store: one document per (user id, problem id). */
  class ProgressStore {
    var docs: map<(string, string), UserProgress>

    constructor (initial: map<(string, string), UserProgress>)
      ensures docs == initial
    {
      docs := initial;
    }

    /** Writes `progress` under (userId, progress.problemId); a failure is
        swallowed and writes nothing. */
    method SaveUserProgress(userId: string, progress: UserProgress, fails: bool)
      modifies this
      ensures docs == if fails then old(docs) else old(docs)[(userId, progress.problemId) := progress]
    {
      if !fails {
        docs := docs[(userId, progress.problemId) := progress];
      }
    }

    /** The record under (userId, problemId); null when it is missing or the read fails. */
    method GetUserProgress(userId: string, problemId: string, fails: bool) returns (r: Option<UserProgress>)
      ensures fails ==> r.None?
      ensures !fails ==> r == Stored(docs, userId, problemId)
    {
      if fails {
        r := None;
      } else if (userId, problemId) in docs {
        r := Some(docs[(userId, problemId)]);
      } else {
        r := None;
      }
    }

    /** The query over a user's partition: every document once, in an order
        the store chooses. */
    method QueryPartition(userId: string) returns (snapshot: seq<Doc>)
      ensures DistinctIds(snapshot)
      ensures MapOf(snapshot) == Partition(docs, userId)
    {
      var part := Partition(docs, userId);
      var remaining := part.Keys;
      snapshot := [];
      while remaining != {}
        invariant remaining <= part.Keys
        invariant DistinctIds(snapshot)
        invariant forall i :: 0 <= i < |snapshot| ==> snapshot[i].id !in remaining
        invariant MapOf(snapshot) == part - remaining
        decreases remaining
      {
        var id :| id in remaining;
        ghost var before := snapshot;
        snapshot := snapshot + [Doc(id, part[id])];
        assert snapshot[..|snapshot| - 1] == before;
        remaining := remaining - {id};
      }
    }

    /** Fetches a user's whole partition and fills a map in a forEach over
        the documents, returning it together with its values in insertion
        order; a failure yields the empty map. */
    method LoadProgress(userId: string, fails: bool) returns (progressMap: map<string, UserProgress>, values: seq<UserProgress>)
      ensures progressMap == if fails then map[] else Partition(docs, userId)
      ensures exists snapshot :: DistinctIds(snapshot) && MapOf(snapshot) == progressMap && values == DataOf(snapshot)
    {
      if fails {
        progressMap, values := map[], [];
        assert MapOf([]) == progressMap && values == DataOf([]);
        return;
      }
      var snapshot := QueryPartition(userId);
      progressMap, values := map[], [];
      var i := 0;
      while i < |snapshot|
        invariant 0 <= i <= |snapshot|
        invariant progressMap == MapOf(snapshot[..i])
        invariant values == DataOf(snapshot[..i])
      {
        assert snapshot[..i + 1][..i] == snapshot[..i];
        progressMap := progressMap[snapshot[i].id := snapshot[i].data];
        values := values + [snapshot[i].data];
        i := i + 1;
      }
      assert snapshot[..i] == snapshot;
    }

    /** A user's records keyed by problem id; the empty map on failure. */
    method GetAllUserProgress(userId: string, fails: bool) returns (progressMap: map<string, UserProgress>)
      ensures progressMap == if fails then map[] else Partition(docs, userId)
    {
      var values;
      progressMap, values := LoadProgress(userId, fails);
    }

    /** Solved count, record count and the five newest records of a user;
        zero statistics on failure. */
    method GetUserStats(userId: string, fails: bool) returns (stats: UserStats)
      ensures Summarises(stats, if fails then map[] else Partition(docs, userId))
      ensures exists snapshot :: DistinctIds(snapshot) && MapOf(snapshot) == (if fails then map[] else Partition(docs, userId))
                                 && stats == StatsOf(DataOf(snapshot))
    {
      var progressMap, values := LoadProgress(userId, fails);
      ghost var snapshot: seq<Doc> :| DistinctIds(snapshot) && MapOf(snapshot) == progressMap && values == DataOf(snapshot);
      StatsOfSnapshot(snapshot);
      stats := StatsOf(values);
    }
  }
}
